=== FILE: README.md ===
# mediCude backend core, modelled in Dafny

A model of the decision logic in the mediCude pharmacy backend, an Express
and PostgreSQL service with a Gemini-backed analytics assistant. The
database, the language model, `JSON.parse`, uploads and clocks are replaced
by parameters: functions the caller supplies, such as a runner that answers
each statement and threads a store, a generator indexed by the attempt
number, and a parse oracle. Everything else is pure functions over
immutable datatypes.

The modules follow the source:

- `JsValues`, `JsStrings`, `JsNumbers` cover the JavaScript behaviour the
  handlers rely on: truthiness, `a || b`, `${x}` of undefined,
  `String.prototype.trim`, global `replace`, and `parseInt` with automatic
  or decimal radix.
- `SqlBinding` states when numbered placeholders `$1..$n` line up with a
  value list.
- `Transaction` describes the command trace on one pooled client: take the
  client, BEGIN, the statements, then COMMIT or ROLLBACK, then release.
- `ErrorHandler` models the error middleware, and also how a forwarded
  error reaches the client.
- `QueryExecutor` models `executeQueries`, and `ModelGateway` models
  `generateContentWithRetry`.
- `InvoiceExtraction` models `processInvoice` with its fence cleaning.
- `AnalyticsPipeline` models `getAnalyticsResponse`: one chat turn inside
  one transaction.
- `InvoicePayment` models `updateInvoicePayment`, and `InvoiceUpdate`
  models the dynamic UPDATE builder of `updateInvoice`.
- `Expiry` models the window selection, the move of a medicine into expiry
  stock, and the expiry-record lookup.
- `WholesalerDetail` models the `/wholesaler/:id` route.

Behaviour of the code that the model keeps, and that a reader might not
expect:

- The statements the model proposes run on the shared pool
  (controller/aiController.js:41), not on the turn's transaction client. A
  rolled-back turn therefore keeps their effects
  (`AnalyticsPipeline.ProposedStatementsSurviveRollback`).
- A statement the database refuses is recorded as a zero-row entry and the
  batch goes on. A `null` element of the statement list instead makes the
  error path itself throw at line 50, so `executeQueries` rejects. The
  statements before the `null` have run and the ones after it never do
  (`QueryExecutor.NullAbortsBatch`).
- The chat pipeline parses the model's raw text (line 232) without the fence
  cleaning that `processInvoice` applies (lines 139-142). A fenced reply
  fails the turn (`AnalyticsPipeline.FencedReplyRollsBack`). Only invoice
  extraction treats fenced and bare replies alike.
- Errors thrown without `res.status(..)` (model exhaustion, parse failures,
  driver errors, `getExpiryMedicineInfoById`'s guards) reach the error
  middleware while the response status is still Node's default 200. The
  middleware keeps that 200, so the client sees an error body with status
  200 (`ErrorHandler.UnsetStatusReachesClientAs200`).
- The session title is rewritten on `new_chat` (line 271), not on the wider
  "new session" test (line 185). The model is also asked for a title on
  `new_chat` alone (line 215).
- A string `sql_query` is pushed as it is (line 236), and the executor reads
  its `.sql`, which is undefined (`AnalyticsPipeline.BareSqlQueryIsNotSent`).

## Model

| member | source | states |
|---|---|---|
| `QueryExecutor.Entry` | controller/aiController.js:41-50 | A success records the row count, the number of fields (0 without a field list), the rows, and the label or "Query Result". A failure records 0 rows, 0 columns, no data and "Error: " followed by the raw label, so a missing label gives "Error: undefined". |
| `QueryExecutor.RunAll` | controller/aiController.js:39-52 | For a list without `null`, the loop yields one entry and one database answer per statement, and starts from the store it was given. |
| `QueryExecutor.RunAllIsBatch` | controller/aiController.js:39-52 | In a list without `null`, every statement is sent in order against the store the previous one left, and each gets exactly one entry, whatever the earlier ones answered. |
| `QueryExecutor.ExecuteQueries` | controller/aiController.js:36-54 | The result is null, with nothing sent, exactly when the list is missing, not an array, or empty. The call rejects, with the message of reading `label` from `null`, exactly when the array holds a `null`; the store is then the one the statements before the first `null` left. Otherwise there is one entry per statement, in input order, equal to the batch the loop produces. |
| `QueryExecutor.BatchUnique` | controller/aiController.js:39-52 | For a list without `null`, the batch is determined by the statements and the starting store: the loop can have gone only one way. |
| `QueryExecutor.EntryIsolated` | controller/aiController.js:39-51 | In a list without `null`, the entry of statement i depends only on that statement and the store it met, so an earlier failure does not change how a later statement is recorded. A failure becomes the zero-row error placeholder. |
| `QueryExecutor.FirstNullAt` | controller/aiController.js:39-50 | The loop stops at the first `null` of the list: a `null` at position k with none before it is where the batch ends. |
| `QueryExecutor.NullAbortsBatch` | controller/aiController.js:39-53 | A `null` at position k makes the call reject after running exactly the statements before it, and what follows the `null` has no effect on the outcome. |
| `QueryExecutor.ExecuteLoop` | controller/aiController.js:38-53 | The sequential `for` loop produces the same entries and final store as the functional description, and stops with a rejection at exactly the lists that hold a `null`. |
| `ModelGateway.Attempts` | controller/aiController.js:59-68 | Every attempt before the returned one failed. Only the last permitted attempt lets an error escape. Waits double between consecutive attempts. |
| `ModelGateway.GenerateWithRetry` | controller/aiController.js:56-69 | The model is called 1 to 3 times, and the waits are a prefix of [1000, 2000]. |
| `ModelGateway.RetryIsFirstSuccess` | controller/aiController.js:56-68 | The first success among three attempts is returned after exactly that many calls. If all three fail, the third error is rethrown after three calls and the waits 1000 and 2000. |
| `ModelGateway.FailTwiceThenSucceed` | controller/aiController.js:56-68 | Two failures and then a success return the success after waits of 1000 and 2000. |
| `InvoiceExtraction.CleanFences` | controller/aiController.js:139-142 | The cleaned text neither starts nor ends with whitespace. |
| `InvoiceExtraction.FencedCleansLikeBare` | controller/aiController.js:139-142 | Backtick-free text wrapped in "```json" … "```" cleans to the same string as the text alone, with any whitespace inside the fences. |
| `InvoiceExtraction.ProcessInvoice` | controller/aiController.js:77-153 | No file gives 400. Status 200 comes exactly when the model answered and its cleaned text parsed, and the body is the parsed document. Every other failure gives the fixed 500 message and echoes nothing. |
| `InvoiceExtraction.FencedReplyExtractsLikeBare` | controller/aiController.js:135-145 | A model that fences its JSON gets the same response as one that returns the bare JSON. |
| `AnalyticsPipeline.InitialTitle` | controller/aiController.js:188 | The title is the first 40 characters of the prompt (all of it if shorter) followed by "...". |
| `AnalyticsPipeline.OpenSession` | controller/aiController.js:182-202 | A new session is created exactly when the turn counts as new, with the prompt-based title and summary "New conversation started". A resumed id opens only if the caller owns it, otherwise the result is 404 "Chat session not found or access denied.". |
| `AnalyticsPipeline.PayloadOf` | controller/aiController.js:211-228 | The model is asked for a title exactly when `new_chat` is truthy. The previous summary is sent, or "None" when it is falsy. The attachment is passed through. |
| `AnalyticsPipeline.CollectStatements` | controller/aiController.js:235-236 | The statements are `query_list` (or nothing) followed by a truthy `sql_query`. Pushing onto a truthy non-array throws. |
| `AnalyticsPipeline.SumRowsZero` | controller/aiController.js:239 | The total row count is zero exactly when no entry has a row. |
| `AnalyticsPipeline.Present` | controller/aiController.js:239-258 | The fallback replaces the outro exactly when the total is 0 and a fallback is given. A falsy title becomes null. `canvas` is the truthiness of `to_canvas`. |
| `AnalyticsPipeline.FallbackIffNoRows` | controller/aiController.js:239-243 | When the fallback differs from the outro, the response uses it exactly when every executed statement returned no row. |
| `AnalyticsPipeline.TouchBinding` | controller/aiController.js:271-282 | With `new_chat` the closing UPDATE binds $1..$3 to three values. Without it, the statement as written references $3 with two values, which do not align. The corrected statement aligns. |
| `AnalyticsPipeline.AfterSession` | controller/aiController.js:231-282 | The steps after the session opens send only statements and never set a status. The answer carries the session's chat id. A finished try block has stored one message holding the prompt, the answer and the attachment flag. It has set the chat's summary from the answer, and its title only with `new_chat`. As written, only a `new_chat` turn finishes. |
| `AnalyticsPipeline.CommitPath` | controller/aiController.js:284-285 | A turn answers only when the session opened, the try block finished and the commit went through; the answer and the tables are the try block's. |
| `AnalyticsPipeline.UnparsedReplyThrows` | controller/aiController.js:231-232 | A model reply that does not parse ends the try block before any statement runs and leaves the pool as it was. |
| `AnalyticsPipeline.Turn` | controller/aiController.js:161-294 | A falsy prompt gives 400 "Prompt is required" before any connection is taken, and nothing changes. A reply is sent only with status 200. A forwarded error undoes every write the turn's own client made to the chat tables. |
| `AnalyticsPipeline.TurnIsBracketed` | controller/aiController.js:179-293 | After the connection is taken, the trace is bracketed by BEGIN and one closing COMMIT or ROLLBACK, and the client is released exactly once. The turn answers exactly when it committed. |
| `AnalyticsPipeline.ForeignChatIsNotFound` | controller/aiController.js:193-201 | Resuming a chat that is missing or owned by someone else gives 404 and rolls back right after the check. The model is never called and no proposed statement runs. |
| `AnalyticsPipeline.CommittedTurnMessage` | controller/aiController.js:260-285 | Through its own client, a committed turn appends exactly one message (prompt, response, attachment flag) to a chat the caller owns. It adds no chat but its own and leaves every other chat unchanged. |
| `AnalyticsPipeline.CommittedTurn` | controller/aiController.js:271-284 | Through its own client, a committed turn always updates the summary. The title changes only with `new_chat`; otherwise a new chat keeps its prompt title and a resumed one keeps its old title. |
| `AnalyticsPipeline.AsWrittenCommitsOnlyNewChat` | controller/aiController.js:271-284 | As written, a turn without `new_chat` never commits. |
| `AnalyticsPipeline.AsWrittenResumeRollsBack` | controller/aiController.js:277-282 | As written, a healthy resumed turn is refused at the closing UPDATE and rolled back. |
| `AnalyticsPipeline.IntendedResumeCommits` | controller/aiController.js:277-285 | With the placeholder corrected, the same resumed turn commits. |
| `AnalyticsPipeline.ProposedStatementsSurviveRollback` | controller/aiController.js:237-240 | When a turn throws after running the proposed statements, because the reply has no `ai_text` or because a `null` in the statement list made `executeQueries` reject, the rollback undoes the client's own writes to the chat tables but not what the statements did through the pool, and the error reaches the client with that message. |
| `AnalyticsPipeline.PropertylessReplyThrows` | controller/aiController.js:232-240 | A reply that parses to a value with no properties (a number, string, boolean or array) collects no statement, sends nothing through the pool, and throws the "reading 'outro_message'" error before any write of the turn. |
| `AnalyticsPipeline.UnparsedTurnRollsBack` | controller/aiController.js:231-232 | A whole turn whose model reply does not parse is answered with a forwarded error, and leaves both the chat tables and the pool's store as they were. |
| `AnalyticsPipeline.FencedReplyRollsBack` | controller/aiController.js:231-232 | A fenced model reply fails to parse, so the turn rolls back without running any statement. |
| `AnalyticsPipeline.BareSqlQueryIsNotSent` | controller/aiController.js:236-237 | A string `sql_query` becomes a one-item list, and the pool is asked to run "undefined" rather than the text. |
| `ErrorHandler.Handle` | middlewares/errorHandler.js:1-12 | The status is the error's own code if truthy, else the response's if truthy, else 500. `success` is false and the body's `statusCode` equals the status. The message falls back to "Something went wrong". The stack appears only in development. |
| `ErrorHandler.Deliver` | middlewares/errorHandler.js:4-11 | A handler's own answer reaches the client unchanged. A forwarded error reaches it as a failure body with the message or the fallback. |
| `ErrorHandler.UnsetStatusReachesClientAs200` | middlewares/errorHandler.js:4 | An error thrown without a status set reaches the client with status 200. |
| `ErrorHandler.SetStatusReachesClient` | middlewares/errorHandler.js:4-6 | A status set before throwing is the status the client sees. |
| `InvoicePayment.NewPaid` | controller/invoicesController.js:77-83 | Only `onlyadd === true` adds the amount to the old paid amount; anything else replaces it. NaN absorbs. |
| `InvoicePayment.Classify` | controller/invoicesController.js:96-104 | Paid exactly when paid equals the total, Partial exactly when 0 < paid < total, Unpaid otherwise (NaN included). |
| `InvoicePayment.NextPaymentDate` | controller/invoicesController.js:112-116 | The `CASE` of the update. That a successful payment stores today for Paid, no date for Unpaid and the previous date for Partial is stated by `InvoicePayment.UpdatePayment`'s contract, together with the stored amount and status. |
| `InvoicePayment.UpdatePayment` | controller/invoicesController.js:46-128 | An amount that is missing, NaN or negative gives 400 before any lookup. A missing or soft-deleted invoice gives 404. A new paid amount above the total gives 400 with nothing written. A success changes exactly the one row. That row stores the new paid amount (added only when `onlyadd` is `true`) and its classification. Its payment date becomes today for Paid, is cleared for Unpaid and is kept for Partial. |
| `InvoicePayment.PaymentKeepsSettled` | controller/invoicesController.js:77-116 | A successful numeric payment leaves the row settled: paid within 0..total, status equal to its classification, a date on Paid rows and none on Unpaid rows. |
| `InvoicePayment.StoredPaidIsCapped` | controller/invoicesController.js:77-93 | The stored paid amount is the rule's amount and never exceeds the total. |
| `InvoicePayment.SplitPayment` | controller/invoicesController.js:77-104 | Adding a and then b gives the same paid amount and status as adding a + b at once, and both ways are accepted or refused together. |
| `InvoicePayment.ReplaceIdempotent` | controller/invoicesController.js:77-116 | Repeating the same replacement leaves the invoices as one replacement did. |
| `InvoicePayment.NullAmountStoresNaN` | controller/invoicesController.js:51-54 | A null amount passes the guard, but parsing it gives NaN, which is stored as an Unpaid payment with no date. |
| `InvoiceUpdate.Supplied` | controller/invoicesController.js:156-185 | The supplied fields come in the order invoice_no, invoice_date, payment_status, paid_amount, wholesaler_id. |
| `InvoiceUpdate.Statement` | controller/invoicesController.js:156-201 | The placeholders are $1..$k+1 in order and align with exactly k+1 values. The i-th field is set through $i+1 to its own value, `updated_at` comes last, and the key is the last value. |
| `InvoiceUpdate.BuildStatement` | controller/invoicesController.js:152-201 | The `paramIndex` counter loop builds exactly that statement. |
| `InvoiceUpdate.UpdateInvoice` | controller/invoicesController.js:134-184 | The invoice lookup comes first. If its query rejects, the error is forwarded with no status set, which the middleware answers with 200 (`ErrorHandler.UnsetStatusReachesClientAs200`). A missing invoice gives 404 before anything else is looked at. When a wholesaler name is given, a rejected wholesaler lookup is forwarded the same way, and a falsy id, exactly, gives 404. Once both lookups pass, the answer is the update's, keyed by the parsed id and carrying the id found. A success implies that both passed. |
| `InvoiceUpdate.ApplyUpdate` | controller/invoicesController.js:152-209 | The answer is 400 exactly when the body supplies no field. Otherwise the statement built from the supplied fields and the key is sent. A database error is forwarded with no status set, and returned rows give 200 with the first row, or none when no row came back. |
| `InvoiceUpdate.SuppliedIffGiven` | controller/invoicesController.js:156-185 | A field (column, value) is among the supplied fields exactly when the body gives that value for the column's property (for the wholesaler, the id found for the name). |
| `InvoiceUpdate.ListedIffGiven` | controller/invoicesController.js:156-185 | A column is listed exactly when its property is present, and then with the body's value. |
| `InvoiceUpdate.AssignedIffListed` | controller/invoicesController.js:158-201 | For any field list, a column is assigned in the statement exactly when it is listed, at that field's position, and its placeholder carries that field's value. |
| `InvoiceUpdate.SetIffSupplied` | controller/invoicesController.js:156-201 | In the statement, a column is assigned exactly when its property is present, and its placeholder carries that value. |
| `SqlBinding.ConsecutiveIsAligned` | controller/invoicesController.js:156-201 | Placeholders numbered $1..$n in order bind exactly n values. |
| `Expiry.SelectWindow` | controller/expiringController.js:9-24 | Days win when they parse to a positive number, then months, then years. There is no window exactly when none of the three is usable. |
| `Expiry.IntervalTextIsSafe` | controller/expiringController.js:14-19 | The text spliced into the INTERVAL literal holds no quote, whatever the query string held, and its number reads back as the count (exactly, as unbounded integers). |
| `Expiry.ExpiringMedicines` | controller/expiringController.js:6-52 | No usable window gives 400 with no query. No rows gives 404. Otherwise the reported count equals the number of rows. |
| `Expiry.TrailingTextIgnored` | controller/expiringController.js:9-15 | For any integer n, the rendering of n followed by text that ends its digit run ("7 days") selects the same window as the rendering alone ("7"), whatever `months` and `years` hold. A positive n selects an n-day window outright. |
| `Expiry.HexadecimalCount` | controller/expiringController.js:9-15 | "0x1f" is read as a 31-day window. |
| `Expiry.NonPositiveSkipped` | controller/expiringController.js:9-19 | A `days` that reads as any zero or negative integer, with or without trailing text, selects the same window as an absent `days`: the choice passes on to `months` and then `years`. |
| `Expiry.ReturnMedicine` | controller/expiringController.js:82-171 | An id not in stock gives 404 with nothing changed, or 500 when the try block's own ROLLBACK fails. Success removes the medicine from stock and appends exactly that record, with all twelve columns, to expiry stock, and reports the id that was deleted. Stock keyed by its `medicine_id` column stays so keyed. Every other failure gives 500 with both tables unchanged. |
| `Expiry.ReturnIsBracketed` | controller/expiringController.js:86-170 | Every path is bracketed and releases the client once, and it commits exactly on success. |
| `Expiry.MoveConserves` | controller/expiringController.js:93-148 | A move keeps the combined count of stock and expiry rows, and the expiry multiset grows by exactly the moved medicine. |
| `Expiry.SecondMoveNotFound` | controller/expiringController.js:93-107 | Moving the same medicine a second time gives 404 and changes nothing. |
| `Expiry.ExpiryInfo` | controller/expiringController.js:211-246 | A missing id and an unknown record both throw without a status. A success answers the whole non-empty row list. |
| `Expiry.UnknownRecordAnswers200` | controller/expiringController.js:237-239 | An unknown record reaches the client as an error body with status 200. |
| `JsNumbers.ReadsDecimalRun` | controller/expiringController.js:9-11 | After whitespace and sign, a decimal digit run followed by text that is not a decimal digit is read as its value, with the sign applied. The one exception is a lone "0" followed by 'x' or 'X' under the automatic radix, which starts a hexadecimal prefix. |
| `JsNumbers.ParseIntShowInt` | controller/expiringController.js:9-11 | `parseInt` reads back the decimal rendering of any integer, also when text follows that does not start with a decimal digit. Letters such as the 'd' of "7days" are allowed. Only a rendered 0 followed by 'x' or 'X' under the automatic radix is excluded, because that starts a hexadecimal prefix. |
| `WholesalerDetail.InvoiceLines` | routes/purchase.js:204-210 | The list is never longer than the rows, and every entry has a truthy invoice number. |
| `WholesalerDetail.InvoiceLinesMembers` | routes/purchase.js:204-210 | An entry is in the list exactly when some row has a truthy invoice number and maps to it. |
| `WholesalerDetail.InvoiceLinesAppend` | routes/purchase.js:204-210 | Shaping distributes over concatenation, so row order is kept. |
| `WholesalerDetail.InvoiceLinesFull` | routes/purchase.js:204-210 | The list is as long as the rows exactly when every row has an invoice number. |
| `WholesalerDetail.CollectInvoices` | routes/purchase.js:204-210 | A loop over the rows builds the same list. |
| `WholesalerDetail.Shape` | routes/purchase.js:193-224 | The summary fields are taken from the first row, and the invoices from all rows. |
| `WholesalerDetail.WholesalerRoute` | routes/purchase.js:136-229 | An id `parseInt` cannot read gives 400 before any query. A failed query gives 500. No rows gives 404. Otherwise the answer is the shaped record. |

## Left out

- Database semantics: SQL text is not interpreted. Each statement is an
  oracle answer, a fault set entry, or a map update on the modelled tables.
  Timestamps (`last_message_at`, `updated_at`, `created_at`) and
  database-generated ids are not modelled.
- The Gemini SDK, `fileToGenerativePart` and multer: the model is a
  generator indexed by attempt, and an upload is bytes plus a MIME type.
  `JSON.parse` is an oracle. In the chat pipeline a reply that parses to a
  number, string, boolean or array has only undefined properties. The
  oracle answers it with `PropertylessReply`, whose fields are all undefined, so
  nothing is collected, no statement runs, and the turn throws at the read
  of `outro_message` (line 240), as in the code
  (`AnalyticsPipeline.PropertylessReplyThrows`). A reply that parses to
  `null` throws at the first property read (line 235). The oracle answers
  it as a parse failure carrying that message.
- `AnalyticsPipeline.Turn`: the chat tables (`chats`, `chat_messages`) and
  the store the proposed statements reach through the pool are kept apart.
  The model therefore assumes that the proposed statements leave the chat
  tables alone. In the code they run on the same database in autocommit
  (controller/aiController.js:41), and nothing limits them to other
  tables. A proposed `DELETE FROM chat_messages` followed by a throw at
  line 240 would stay deleted after the ROLLBACK. The same assumption
  underlies `AnalyticsPipeline.CommittedTurnMessage`,
  `AnalyticsPipeline.CommittedTurn` and
  `AnalyticsPipeline.ProposedStatementsSurviveRollback`.
- `AnalyticsPipeline.CommittedTurnMessage`: "exactly one message, every
  other chat unchanged" covers the turn's own client only. A proposed
  statement that writes the chat tables is not modelled, as named at
  `AnalyticsPipeline.Turn`.
- `AnalyticsPipeline.CommittedTurn`: the title and summary rules cover the
  turn's own client only. A proposed statement that updates `chats` is not
  modelled, as named at `AnalyticsPipeline.Turn`.
- `AnalyticsPipeline.ProposedStatementsSurviveRollback`: the restored chat
  tables are the client's own writes undone. A proposed statement that
  wrote the chat tables is not modelled, as named at
  `AnalyticsPipeline.Turn`.
- Real waiting: `setTimeout` delays are recorded as a list of milliseconds.
- Failure of `pool.connect()`, and failure of the ROLLBACK sent by a catch
  block (controller/aiController.js:288,
  controller/expiringController.js:161). Both happen outside the modelled
  try blocks. The early ROLLBACK at controller/expiringController.js:102
  runs inside the try block and is modelled: when it fails, the catch block
  answers 500 instead of 404.
- `console` logging; the uuid generator (a fresh id is a parameter); the
  exact wording of the model's text block and of `JSON.stringify` (the
  payload is modelled by its parts).
- `removeExpiringMedicines`: as written it reads the local `addExpiryStock`
  before initialising it and refers to an undeclared `result`, so it cannot
  complete.
- Read-only handlers whose logic lives in SQL or in service files that are
  not part of this model: `getChatMenu`, `openChat`, `handleGetInvoicesData`,
  `InvoiceSerach`, `getInvoiceById`, `handleGetExpiryStockData`. Also
  `deleteInvoice`, a soft delete that sets `deleted_at` in one UPDATE
  (controller/invoicesController.js:224), whose existence check lives in a
  service file. Also left out: the dashboard and Excel report
  controllers, the JWT service, `server.js` and the route wiring.
- Floating-point money: amounts are reals. NaN is kept as a separate value
  because the payment arithmetic can produce it.
- `JsNumbers.ParseInt`: the result is an exact unbounded integer. JavaScript
  returns a double, which rounds digit runs above 2^53
  (`parseInt("9007199254740993")` is 9007199254740992) and is Infinity past
  about 1.8e308.
- `JsNumbers.ShowInt`: the rendering is the full decimal digit string.
  JavaScript writes numbers from 1e21 up in exponent form ("1e+21"), and
  Infinity as "Infinity".
- `JsNumbers.ReadsDecimalRun`: exact only for runs up to 2^53, because of the
  rounding named at `JsNumbers.ParseInt`.
- `JsNumbers.ParseIntShowInt`: the read-back holds in JavaScript only for
  safe integers (magnitude below 2^53), because of the rounding and exponent
  form named above.
- `Expiry.IntervalTextIsSafe`: the count reads back exactly only below 2^53.
  From 1e21 up JavaScript splices "1e+21 DAY", whose number reads back as 1.
  The absence of quotes holds for those texts too.
- `Expiry.TrailingTextIgnored`: for n above 2^53 JavaScript selects a window
  of the rounded count, not of n.
- `AnalyticsPipeline.AfterSession`: `ai_text: null` and a missing `ai_text`
  are both `None`. The error message is always the one for `undefined`,
  where for `null` the code's message reads "of null". An `ai_text` that is
  a string or number has no `outro_message` and does not throw. It is
  represented as an `AiText` whose three properties are undefined.
- Query parameters repeated into arrays (`?days=1&days=2`). The strings are
  sequences of Unicode scalar values, not UTF-16 code units, so
  `prompt.slice(0, 40)` differs for characters outside the Basic
  Multilingual Plane.
- `AnalyticsPipeline.OpenSession`: a prompt that is an array is treated
  like any other non-string prompt, so a new chat throws at
  `prompt.slice`. In the code an array has `slice` and `+ "..."` joins it
  (`["a","b"]` gives the title "a,b..."), so such a turn can go on and
  commit. Arrays are not distinguished from other objects, because
  `Array.prototype.join`'s rendering of arbitrary elements is not modelled.
- `QueryExecutor.Entry`: a statement's label is a string or absent. A label
  that is `null`, a number or an object (rendered as "Error: null" and the
  like, or kept as a non-string caption) is not represented. What the pool
  answers to a statement whose text is undefined is left to the runner.
- `InvoicePayment.UpdatePayment`: whether PostgreSQL accepts the route text
  as an integer, and whether it accepts a NaN paid amount, are left to the
  `castInt` and `updateFault` parameters.
- `InvoiceExtraction.CleanFences`: its own contract states only that the
  result is trimmed. What it removes is stated by
  `FencedCleansLikeBare`.

## Findings

| source | as written | input that shows it | evidently intended | confidence | as-written member | corrected member |
|---|---|---|---|---|---|---|
| controller/aiController.js:278-281 | When `new_chat` is falsy, the closing `UPDATE chats ... WHERE id = $3` is sent with two values. PostgreSQL cannot type the unused `$2` and refuses the statement, so the whole turn rolls back. | A turn with falsy `new_chat` that resumes a chat the caller owns, with a model reply that parses and has `ai_text` | `WHERE id = $2`, so resumed turns commit their message and summary | high (not executed) | `AnalyticsPipeline.AsWrittenResumeRollsBack` | `AnalyticsPipeline.IntendedResumeCommits` |

=== FILE: analytics_pipeline.dfy ===
/** `getAnalyticsResponse` (controller/aiController.js): one chat turn of
    the analytics assistant. Inside one transaction on a pooled connection
    it opens or resumes a chat session, asks the language model (with
    retry), parses its JSON reply, runs the statements the reply proposes on
    the shared pool, stores the turn, updates the session, and commits; any
    throw rolls back, and the connection is always released.

    The chat tables are a value (`Store`) the transaction works on and that
    is replaced only by a successful COMMIT. The model, `JSON.parse`, the
    pool and the failure of individual client statements are parameters
    (`Env`). */
module AnalyticsPipeline {
  import opened JsValues
  import JsStrings
  import SqlBinding
  import Transaction
  import QueryExecutor
  import ModelGateway
  import ErrorHandler

  // ---------------------------------------------------------------------
  // Data
  // ---------------------------------------------------------------------

  /** `req.user`: employee id, role and full name, sent to the model. */
  datatype UserContext = UserContext(employeeId: Value, role: string, fullName: Value)

  /** An uploaded image as multer holds it in memory. */
  datatype Attachment = Attachment(data: seq<bv8>, mimeType: string)

  /** The request: body fields, the `:id` route parameter, the caller's
      login id, the user context and the optional file. */
  datatype Request = Request(
    prompt: Value,
    nextGenSummary: Value,
    newChat: Value,
    id: Option<string>,
    loginId: int,
    user: UserContext,
    file: Option<Attachment>)

  /** A row of `chats` (timestamps are not modelled). */
  datatype Chat = Chat(owner: int, title: Value, summary: Value)

  /** The `ai_text` object of the model's reply. */
  datatype AiText = AiText(intro: Value, outro: Value, toCanvas: Value)

  /** The model's reply after `JSON.parse`. `aiText` is `None` when the
      property is missing; `sqlQuery` is the single-statement field. */
  datatype Envelope = Envelope(
    title: Value,
    aiText: Option<AiText>,
    queryList: QueryExecutor.ListArg,
    sqlQuery: Option<QueryExecutor.Item>,
    nextGenSummary: Value,
    intent: Value,
    fallback: Value)

  /** The JSON answered to the client and stored with the turn. */
  datatype FinalResponse = FinalResponse(
    chatId: string,
    title: Value,
    intro: Value,
    outro: Value,
    toCanvas: Value,
    fromDatabase: Option<seq<QueryExecutor.Dataset>>,
    canvas: bool,
    nextGenSummary: Value,
    intent: Value)

  /** The stored content of a `chat_messages` row. */
  datatype SavedTurn = SavedTurn(userQuery: Value, response: FinalResponse, hasImage: bool)

  /** A row of `chat_messages` (its own uuid is not modelled). */
  datatype Message = Message(chatId: string, role: string, content: SavedTurn)

  /** The chat tables. */
  datatype Store = Store(chats: map<string, Chat>, messages: seq<Message>)

  /** What the model is sent: the text block's parts and the image. */
  datatype Payload = Payload(
    context: UserContext,
    previousSummary: Value,
    prompt: Value,
    titleRequested: bool,
    attachment: Option<Attachment>)

  /** The outcome of `JSON.parse` on the model's text. */
  datatype ParseReply = Parsed(envelope: Envelope) | NotJson(message: string)

  /** The client statements of the try block that can fail. */
  datatype Step = BeginStep | InsertChatStep | SelectChatStep | InsertMessageStep | UpdateChatStep | CommitStep

  /** The environment of one turn: the uuid minted for a new chat, the
      client statements that fail (with the driver's message), the model,
      `JSON.parse`, and the pool the proposed statements run on. */
  datatype Env<!P> = Env(
    freshId: string,
    faults: map<Step, string>,
    generate: (Payload, nat) -> ModelGateway.GenReply,
    parse: string -> ParseReply,
    run: QueryExecutor.Runner<P>)

  /** The `UPDATE chats` at the end of the turn: as written, or with the
      placeholder numbering corrected (see `TouchBinding`). */
  datatype TouchVariant = AsWritten | Intended

  const PromptRequired: string := "Prompt is required"
  const SessionNotFound: string := "Chat session not found or access denied."
  const InitialSummary: string := "New conversation started"
  const TitleMissing: string := "Untitled Chat"
  const SummaryMissing: string := "Updated"
  const DuplicateKey: string := "duplicate key value violates unique constraint"
  const SliceNotAFunction: string := "prompt.slice is not a function"
  const PushNotAFunction: string := "queriesToRun.push is not a function"
  const AiTextMissing: string := "Cannot read properties of undefined (reading 'outro_message')"
  const UntypedParameter: string := "could not determine data type of parameter $2"

  // ---------------------------------------------------------------------
  // Session decision
  // ---------------------------------------------------------------------

  /** A turn starts a new chat when `new_chat` is truthy or the id is
      missing, empty, or one of the strings "null" and "undefined". */
  predicate IsActuallyNew(newChat: Value, id: Option<string>) {
    Truthy(newChat) || id.None? || id.value == "" || id.value == "null" || id.value == "undefined"
  }

  /** `prompt.slice(0, 40) + "..."`. */
  function InitialTitle(prompt: string): (t: string)
    ensures |t| == (if |prompt| < 40 then |prompt| else 40) + 3
    ensures t[..|t| - 3] == prompt[..|t| - 3]
    ensures t[|t| - 3..] == "..."
  {
    JsStrings.SliceFront(prompt, 40) + "..."
  }

  predicate OwnedBy(s: Store, id: string, loginId: int) {
    id in s.chats && s.chats[id].owner == loginId
  }

  datatype Session =
    | Opened(chatId: string, created: bool, execs: seq<Transaction.Cmd>, work: Store)
    | SessionThrew(statusSet: Option<int>, message: string, execs: seq<Transaction.Cmd>)

  /** BEGIN, then either insert a new chat or check that the requested one
      belongs to the caller. */
  function OpenSession<P>(req: Request, s: Store, env: Env<P>): (r: Session)
    ensures Transaction.AllExec(r.execs)
    ensures r.Opened? ==> r.created == IsActuallyNew(req.newChat, req.id)
    ensures r.Opened? && r.created ==>
      && r.chatId == env.freshId && env.freshId !in s.chats && req.prompt.Str?
      && r.work == s.(chats := s.chats[env.freshId := Chat(req.loginId, Str(InitialTitle(req.prompt.s)), Str(InitialSummary))])
    ensures r.Opened? && !r.created ==> r.chatId == req.id.value && r.work == s && OwnedBy(s, r.chatId, req.loginId)
    // a resumed id that is missing or belongs to someone else is "not found"
    ensures !IsActuallyNew(req.newChat, req.id) && BeginStep !in env.faults && SelectChatStep !in env.faults ==>
      (r.Opened? <==> OwnedBy(s, req.id.value, req.loginId))
    ensures r.SessionThrew? && r.statusSet.Some? ==> r.statusSet == Some(404) && r.message == SessionNotFound
  {
    if BeginStep in env.faults then SessionThrew(None, env.faults[BeginStep], [])
    else if IsActuallyNew(req.newChat, req.id) then
      if !req.prompt.Str? then SessionThrew(None, SliceNotAFunction, [])
      else
        var exec := [Transaction.Exec("INSERT INTO chats")];
        if InsertChatStep in env.faults then SessionThrew(None, env.faults[InsertChatStep], exec)
        else if env.freshId in s.chats then SessionThrew(None, DuplicateKey, exec)
        else
          var chat := Chat(req.loginId, Str(InitialTitle(req.prompt.s)), Str(InitialSummary));
          Opened(env.freshId, true, exec, s.(chats := s.chats[env.freshId := chat]))
    else
      var exec := [Transaction.Exec("SELECT id FROM chats")];
      if SelectChatStep in env.faults then SessionThrew(None, env.faults[SelectChatStep], exec)
      else if !OwnedBy(s, req.id.value, req.loginId) then SessionThrew(Some(404), SessionNotFound, exec)
      else Opened(req.id.value, false, exec, s)
  }

  // ---------------------------------------------------------------------
  // Model call
  // ---------------------------------------------------------------------

  /** The text block sent to the model: user context, the previous summary
      or "None", the prompt, and whether a title is asked for. The title is
      requested on `new_chat` alone, not on the wider new-session test. */
  function PayloadOf(req: Request): (pl: Payload)
    ensures pl.titleRequested <==> Truthy(req.newChat)
    ensures Truthy(req.nextGenSummary) ==> pl.previousSummary == req.nextGenSummary
    ensures !Truthy(req.nextGenSummary) ==> pl.previousSummary == Str("None")
    ensures pl.attachment == req.file
  {
    Payload(req.user, Or(req.nextGenSummary, Str("None")), req.prompt, Truthy(req.newChat), req.file)
  }

  /** The gateway's outcome for this request. */
  function ModelReply<P>(req: Request, env: Env<P>): ModelGateway.RetryOutcome {
    ModelGateway.GenerateWithRetry((i: nat) => env.generate(PayloadOf(req), i))
  }

  // ---------------------------------------------------------------------
  // Statements and presentation
  // ---------------------------------------------------------------------

  /** `if (aiParsed.sql_query)`: only a truthy value is pushed. */
  predicate ItemTruthy(q: QueryExecutor.Item) {
    q.QueryObject? || (q.Scalar? && q.text != "")
  }

  datatype Collected = Collected(arg: QueryExecutor.ListArg) | PushFailed

  /** `let queriesToRun = aiParsed.query_list || []`, then push `sql_query`
      when present. Pushing onto a truthy non-array throws. */
  function CollectStatements(e: Envelope): (c: Collected)
    ensures c.Collected? && c.arg.Array? ==>
      c.arg.items == (if e.queryList.Array? then e.queryList.items else [])
                     + (if e.sqlQuery.Some? && ItemTruthy(e.sqlQuery.value) then [e.sqlQuery.value] else [])
    ensures c.PushFailed? <==> e.queryList == QueryExecutor.NotArray(true) && e.sqlQuery.Some? && ItemTruthy(e.sqlQuery.value)
    ensures c.Collected? && !c.arg.Array? ==> c.arg == QueryExecutor.NotArray(true)
  {
    var base := match e.queryList
      case Array(items) => QueryExecutor.Array(items)
      case NotArray(truthy) => if truthy then QueryExecutor.NotArray(true) else QueryExecutor.Array([])
      case Absent => QueryExecutor.Array([]);
    if e.sqlQuery.Some? && ItemTruthy(e.sqlQuery.value) then
      if base.Array? then Collected(QueryExecutor.Array(base.items + [e.sqlQuery.value])) else PushFailed
    else Collected(base)
  }

  function SumRows(ds: seq<QueryExecutor.Dataset>): nat {
    if ds == [] then 0 else SumRows(ds[..|ds| - 1]) + ds[|ds| - 1].rows
  }

  /** `databaseResults ? databaseResults.reduce((acc, ds) => acc + ds.rows, 0) : 0`. */
  function TotalRows(results: Option<seq<QueryExecutor.Dataset>>): nat {
    match results
    case None => 0
    case Some(ds) => SumRows(ds)
  }

  /** The total is zero exactly when no entry has a row. */
  lemma {:induction false} SumRowsZero(ds: seq<QueryExecutor.Dataset>)
    ensures SumRows(ds) == 0 <==> forall i :: 0 <= i < |ds| ==> ds[i].rows == 0
  {
    if ds != [] {
      SumRowsZero(ds[..|ds| - 1]);
      assert forall i :: 0 <= i < |ds| - 1 ==> ds[..|ds| - 1][i] == ds[i];
    }
  }

  /** The response object. */
  function Present(chatId: string, e: Envelope, text: AiText, results: Option<seq<QueryExecutor.Dataset>>): (r: FinalResponse)
    // the fallback replaces the outro exactly when nothing came back and a fallback was given
    ensures TotalRows(results) == 0 && Truthy(e.fallback) ==> r.outro == e.fallback
    ensures TotalRows(results) != 0 || !Truthy(e.fallback) ==> r.outro == text.outro
    ensures Truthy(r.title) <==> Truthy(e.title)
    ensures Truthy(e.title) ==> r.title == e.title
    ensures r.canvas <==> Truthy(text.toCanvas)
    ensures r.chatId == chatId && r.fromDatabase == results && r.nextGenSummary == e.nextGenSummary
  {
    var outro := if TotalRows(results) == 0 && Truthy(e.fallback) then e.fallback else text.outro;
    FinalResponse(chatId, Or(e.title, Null), text.intro, outro, text.toCanvas, results,
                  Truthy(text.toCanvas), e.nextGenSummary, e.intent)
  }

  /** A `sql_query` that is a plain string is pushed as it is, and the
      executor reads `.sql` of it, which is undefined: the statement text is
      never sent, and the pool is asked to run nothing. */
  lemma BareSqlQueryIsNotSent<P>(e: Envelope, text: string, p: P, run: QueryExecutor.Runner<P>)
    requires e.queryList == QueryExecutor.Absent && e.sqlQuery == Some(QueryExecutor.Scalar(text)) && text != ""
    ensures CollectStatements(e) == Collected(QueryExecutor.Array([QueryExecutor.Scalar(text)]))
    ensures QueryExecutor.ExecuteQueries(CollectStatements(e).arg, p, run)
         == QueryExecutor.Executed(Some([QueryExecutor.Entry(QueryExecutor.Scalar(text), run(p, None).0)]), run(p, None).1)
  {
    var items := [QueryExecutor.Scalar(text)];
    assert QueryExecutor.FirstNull(items) == 1 && items[..1] == items;
    var b := QueryExecutor.RunAll(items, p, run);
    QueryExecutor.RunAllIsBatch(items, p, run);
    assert QueryExecutor.StepOf(run, items[0], b.states[0], b.replies[0], b.states[1], b.datasets[0]);
    assert QueryExecutor.SqlOf(items[0]) == None;
    assert b.datasets == [b.datasets[0]];
  }

  /** The fallback is used exactly when every statement returned no row
      (a failed one counts as zero rows) and the model supplied one. */
  lemma FallbackIffNoRows(chatId: string, e: Envelope, text: AiText, ds: seq<QueryExecutor.Dataset>)
    requires Truthy(e.fallback) && e.fallback != text.outro
    ensures Present(chatId, e, text, Some(ds)).outro == e.fallback
            <==> forall i :: 0 <= i < |ds| ==> ds[i].rows == 0
  {
    SumRowsZero(ds);
  }

  // ---------------------------------------------------------------------
  // Session update
  // ---------------------------------------------------------------------

  /** Placeholders and values of the closing `UPDATE chats`. With `new_chat`
      it sets summary `$1` and title `$2` of chat `$3`. Without it the code
      as written keeps `WHERE id = $3` but passes two values; the corrected
      statement uses `$2`. */
  datatype Binding = Binding(params: seq<nat>, values: seq<Value>)

  function TouchBinding(variant: TouchVariant, newChat: Value, e: Envelope, chatId: string): (b: Binding)
    ensures Truthy(newChat) || variant == Intended ==> SqlBinding.Aligned(b.params, |b.values|)
    ensures !Truthy(newChat) && variant == AsWritten ==> !SqlBinding.Aligned(b.params, |b.values|)
    ensures |b.values| >= 2
    ensures b.values[0] == Or(e.nextGenSummary, Str(SummaryMissing)) && b.values[|b.values| - 1] == Str(chatId)
  {
    var summary := Or(e.nextGenSummary, Str(SummaryMissing));
    if Truthy(newChat) then
      SqlBinding.ConsecutiveIsAligned([1, 2, 3]);
      Binding([1, 2, 3], [summary, Or(e.title, Str(TitleMissing)), Str(chatId)])
    else if variant == AsWritten then
      var b := Binding([1, 3], [summary, Str(chatId)]);
      assert b.params[1] == 3;
      b
    else
      SqlBinding.ConsecutiveIsAligned([1, 2]);
      Binding([1, 2], [summary, Str(chatId)])
  }

  /** The row change of an accepted `UPDATE chats`. */
  function Touch(chats: map<string, Chat>, chatId: string, newChat: Value, e: Envelope): map<string, Chat> {
    if chatId !in chats then chats
    else
      var c := chats[chatId];
      var summary := Or(e.nextGenSummary, Str(SummaryMissing));
      chats[chatId := if Truthy(newChat) then c.(summary := summary, title := Or(e.title, Str(TitleMissing)))
                      else c.(summary := summary)]
  }

  // ---------------------------------------------------------------------
  // The try block and the turn
  // ---------------------------------------------------------------------

  datatype TryResult<P> =
    | Done(response: FinalResponse, execs: seq<Transaction.Cmd>, work: Store, pool: P, calls: nat, delays: seq<nat>)
    | Threw(statusSet: Option<int>, message: string, execs: seq<Transaction.Cmd>, pool: P, calls: nat, delays: seq<nat>)

  /** A chat row after the closing update, told from the answer: the
      summary is the one the answer carries (or "Updated"), and with
      `new_chat` so is the title (or "Untitled Chat"). */
  function Retitled(c: Chat, newChat: Value, resp: FinalResponse): Chat {
    var c1 := c.(summary := Or(resp.nextGenSummary, Str(SummaryMissing)));
    if Truthy(newChat) then c1.(title := Or(resp.title, Str(TitleMissing))) else c1
  }

  /** Everything after the session is open: model, parse, statements,
      message row, session update. */
  function AfterSession<P>(req: Request, env: Env<P>, variant: TouchVariant, chatId: string,
                           execs: seq<Transaction.Cmd>, work: Store, p: P): (r: TryResult<P>)
    requires Transaction.AllExec(execs)
    ensures Transaction.AllExec(r.execs)
    ensures r.Threw? ==> r.statusSet.None?
    ensures r.Done? ==> r.response.chatId == chatId
    // a finished try block has stored one message with the answer, and
    // updated the session's row to agree with the answer
    ensures r.Done? ==>
      r.work.messages == work.messages + [Message(chatId, req.user.role, SavedTurn(req.prompt, r.response, req.file.Some?))]
    // as written, only a `new_chat` turn gets through the closing update
    ensures r.Done? && variant == AsWritten ==> Truthy(req.newChat)
    ensures r.Done? ==>
      r.work.chats == if chatId in work.chats then work.chats[chatId := Retitled(work.chats[chatId], req.newChat, r.response)]
                      else work.chats
  {
    var o := ModelReply(req, env);
    match o.result
    case GenFailed(err) => Threw(None, err, execs, p, o.calls, o.delays)
    case Text(raw) =>
      match env.parse(raw)
      case NotJson(msg) => Threw(None, msg, execs, p, o.calls, o.delays)
      case Parsed(e) =>
        match CollectStatements(e)
        case PushFailed => Threw(None, PushNotAFunction, execs, p, o.calls, o.delays)
        case Collected(arg) =>
          var ex := QueryExecutor.ExecuteQueries(arg, p, env.run);
          if ex.Aborted? then Threw(None, ex.message, execs, ex.store, o.calls, o.delays)
          else if e.aiText.None? then Threw(None, AiTextMissing, execs, ex.store, o.calls, o.delays)
          else
            var response := Present(chatId, e, e.aiText.value, ex.results);
            var execs1 := execs + [Transaction.Exec("INSERT INTO chat_messages")];
            if InsertMessageStep in env.faults then
              Threw(None, env.faults[InsertMessageStep], execs1, ex.store, o.calls, o.delays)
            else
              var saved := SavedTurn(req.prompt, response, req.file.Some?);
              var work1 := work.(messages := work.messages + [Message(chatId, req.user.role, saved)]);
              var execs2 := execs1 + [Transaction.Exec("UPDATE chats")];
              var b := TouchBinding(variant, req.newChat, e, chatId);
              if UpdateChatStep in env.faults then
                Threw(None, env.faults[UpdateChatStep], execs2, ex.store, o.calls, o.delays)
              else if !SqlBinding.Aligned(b.params, |b.values|) then
                Threw(None, UntypedParameter, execs2, ex.store, o.calls, o.delays)
              else
                var work2 := work1.(chats := Touch(work1.chats, chatId, req.newChat, e));
                assert Or(response.title, Str(TitleMissing)) == Or(e.title, Str(TitleMissing));
                Done(response, execs2, work2, ex.store, o.calls, o.delays)
  }

  /** What `JSON.parse` gives for a reply that is a number, string, boolean
      or array: a value all of whose properties read as undefined. */
  const PropertylessReply: Envelope :=
    Envelope(Undefined, None, QueryExecutor.Absent, None, Undefined, Undefined, Undefined)

  /** Such a reply collects nothing, sends no statement, and throws at the
      read of `ai_text.outro_message`. */
  lemma PropertylessReplyThrows<P>(req: Request, env: Env<P>, variant: TouchVariant, chatId: string,
                                   execs: seq<Transaction.Cmd>, work: Store, p: P)
    requires Transaction.AllExec(execs)
    requires ModelReply(req, env).result.Text? && env.parse(ModelReply(req, env).result.text) == Parsed(PropertylessReply)
    ensures var r := AfterSession(req, env, variant, chatId, execs, work, p);
      r.Threw? && r.message == AiTextMissing && r.pool == p && r.execs == execs
  {
    assert CollectStatements(PropertylessReply) == Collected(QueryExecutor.Array([]));
  }

  /** Everything one turn did: the reply handed to the framework, the chat
      tables afterwards, the client trace, the pool's store, and the model
      calls and waits. */
  datatype TurnOutcome<P> = TurnOutcome(
    reply: ErrorHandler.Reply<FinalResponse>,
    store: Store,
    trace: seq<Transaction.Cmd>,
    pool: P,
    calls: nat,
    delays: seq<nat>)

  /** One chat turn. */
  function Turn<P>(req: Request, s: Store, p: P, env: Env<P>, variant: TouchVariant): (t: TurnOutcome<P>)
    // a missing prompt is refused before a connection is taken
    ensures !Truthy(req.prompt) ==>
      t == TurnOutcome(ErrorHandler.Forward(Some(400), PromptRequired), s, [], p, 0, [])
    // a reply is sent only after a commit; otherwise the chat tables are untouched
    ensures t.reply.Respond? ==> t.reply.status == 200
    ensures t.reply.Forward? ==> t.store == s
  {
    if !Truthy(req.prompt) then
      TurnOutcome(ErrorHandler.Forward(Some(400), PromptRequired), s, [], p, 0, [])
    else
      match OpenSession(req, s, env)
      case SessionThrew(statusSet, msg, execs) =>
        TurnOutcome(ErrorHandler.Forward(statusSet, msg), s, Transaction.Bracket(execs, Transaction.RolledBack), p, 0, [])
      case Opened(chatId, _, execs, work) =>
        match AfterSession(req, env, variant, chatId, execs, work, p)
        case Threw(statusSet, msg, execs1, p1, calls, delays) =>
          TurnOutcome(ErrorHandler.Forward(statusSet, msg), s, Transaction.Bracket(execs1, Transaction.RolledBack), p1, calls, delays)
        case Done(response, execs1, work1, p1, calls, delays) =>
          if CommitStep in env.faults then
            TurnOutcome(ErrorHandler.Forward(None, env.faults[CommitStep]), s,
                        Transaction.Bracket(execs1, Transaction.CommitFailed), p1, calls, delays)
          else
            TurnOutcome(ErrorHandler.Respond(200, response), work1,
                        Transaction.Bracket(execs1, Transaction.Committed), p1, calls, delays)
  }

  // ---------------------------------------------------------------------
  // Properties of a turn
  // ---------------------------------------------------------------------

  /** Once a connection is taken the turn is bracketed: BEGIN first, one
      closing COMMIT or ROLLBACK, the connection released exactly once, and
      the turn answers exactly when it committed. */
  lemma TurnIsBracketed<P>(req: Request, s: Store, p: P, env: Env<P>, variant: TouchVariant)
    requires Truthy(req.prompt)
    ensures var t := Turn(req, s, p, env, variant);
      && Transaction.Bracketed(t.trace)
      && Transaction.Releases(t.trace) == 1
      && (Transaction.EndsCommitted(t.trace) <==> t.reply.Respond?)
  {
    var t := Turn(req, s, p, env, variant);
    match OpenSession(req, s, env)
    case SessionThrew(_, _, execs) =>
      Transaction.BracketShape(execs, Transaction.RolledBack);
    case Opened(chatId, _, execs, work) =>
      match AfterSession(req, env, variant, chatId, execs, work, p)
      case Threw(_, _, execs1, _, _, _) =>
        Transaction.BracketShape(execs1, Transaction.RolledBack);
      case Done(_, execs1, _, _, _, _) =>
        Transaction.BracketShape(execs1, Transaction.CommitFailed);
        Transaction.BracketShape(execs1, Transaction.Committed);
  }

  /** Resuming a chat that does not exist or belongs to someone else: 404,
      rolled back right after the ownership check, before the model is
      called or any proposed statement runs. */
  lemma ForeignChatIsNotFound<P>(req: Request, s: Store, p: P, env: Env<P>, variant: TouchVariant)
    requires Truthy(req.prompt) && !IsActuallyNew(req.newChat, req.id)
    requires BeginStep !in env.faults && SelectChatStep !in env.faults
    requires !OwnedBy(s, req.id.value, req.loginId)
    ensures Turn(req, s, p, env, variant) == TurnOutcome(
      ErrorHandler.Forward(Some(404), SessionNotFound), s,
      [Transaction.Connect, Transaction.Begin, Transaction.Exec("SELECT id FROM chats"),
       Transaction.Rollback, Transaction.Release],
      p, 0, [])
  {
    var r := OpenSession(req, s, env);
    assert r.SessionThrew? && r.statusSet.Some?;
  }

  /** The only path to an answer: the session opened, the try block
      finished, and the commit went through; the answer and the tables are
      the try block's. */
  lemma CommitPath<P>(req: Request, s: Store, p: P, env: Env<P>, variant: TouchVariant)
      returns (session: Session, r: TryResult<P>)
    requires Turn(req, s, p, env, variant).reply.Respond?
    ensures session == OpenSession(req, s, env) && session.Opened?
    ensures r == AfterSession(req, env, variant, session.chatId, session.execs, session.work, p) && r.Done?
    ensures Turn(req, s, p, env, variant).store == r.work && Turn(req, s, p, env, variant).reply.body == r.response
  {
    session := OpenSession(req, s, env);
    r := AfterSession(req, env, variant, session.chatId, session.execs, session.work, p);
  }

  /** A committed turn appends exactly one message to its chat, and the
      chat belongs to the caller. */
  lemma CommittedTurnMessage<P>(req: Request, s: Store, p: P, env: Env<P>, variant: TouchVariant)
    requires Turn(req, s, p, env, variant).reply.Respond?
    ensures var t := Turn(req, s, p, env, variant);
      var id := t.reply.body.chatId;
      && t.store.messages == s.messages + [Message(id, req.user.role, SavedTurn(req.prompt, t.reply.body, req.file.Some?))]
      && id in t.store.chats && t.store.chats[id].owner == req.loginId
      && t.store.chats.Keys == s.chats.Keys + {id}
      && (forall k :: k in s.chats && k != id ==> (k in t.store.chats && t.store.chats[k] == s.chats[k]))
  {
    var session, r := CommitPath(req, s, p, env, variant);
  }

  /** A committed turn updates the summary always but the title only when
      `new_chat` is truthy: otherwise a new chat keeps the prompt-based
      title and a resumed chat keeps its old title. */
  lemma CommittedTurn<P>(req: Request, s: Store, p: P, env: Env<P>, variant: TouchVariant)
    requires Turn(req, s, p, env, variant).reply.Respond?
    ensures var t := Turn(req, s, p, env, variant);
      var resp := t.reply.body;
      var id := resp.chatId;
      && id in t.store.chats
      && t.store.chats[id].summary == Or(resp.nextGenSummary, Str(SummaryMissing))
      && (Truthy(req.newChat) ==> t.store.chats[id].title == Or(resp.title, Str(TitleMissing)))
      && (!Truthy(req.newChat) && IsActuallyNew(req.newChat, req.id) ==>
            id == env.freshId && id !in s.chats && t.store.chats[id].title == Str(InitialTitle(req.prompt.s)))
      && (!IsActuallyNew(req.newChat, req.id) ==>
            (id == req.id.value && id in s.chats
             && (!Truthy(req.newChat) ==> t.store.chats[id].title == s.chats[id].title)))
  {
    var session, r := CommitPath(req, s, p, env, variant);
  }

  /** As written, the closing update of a turn without `new_chat` names
      `$3` but sends two values, which the server refuses: such a turn never
      commits, whether it resumed a chat or started one from a "null" id. */
  lemma AsWrittenCommitsOnlyNewChat<P>(req: Request, s: Store, p: P, env: Env<P>)
    ensures Turn(req, s, p, env, AsWritten).reply.Respond? ==> Truthy(req.newChat)
  {
    if Turn(req, s, p, env, AsWritten).reply.Respond? {
      var session, r := CommitPath(req, s, p, env, AsWritten);
    }
  }

  /** The turn on which the two update statements part: a chat the caller
      owns, no driver failure, a model reply that parses with `ai_text`. */
  predicate HealthyResume<P>(req: Request, s: Store, env: Env<P>) {
    && Truthy(req.prompt) && !Truthy(req.newChat) && !IsActuallyNew(req.newChat, req.id)
    && OwnedBy(s, req.id.value, req.loginId)
    && env.faults == map[]
    && ModelReply(req, env).result.Text?
    && env.parse(ModelReply(req, env).result.text).Parsed?
    && var e := env.parse(ModelReply(req, env).result.text).envelope;
       && e.aiText.Some? && CollectStatements(e).Collected?
       && (CollectStatements(e).arg.Array? ==> QueryExecutor.NoNull(CollectStatements(e).arg.items))
  }

  /** As written, a healthy resumed turn is rolled back at the closing
      update, after the proposed statements already ran on the pool. */
  lemma AsWrittenResumeRollsBack<P>(req: Request, s: Store, p: P, env: Env<P>)
    requires HealthyResume(req, s, env)
    ensures var t := Turn(req, s, p, env, AsWritten);
      t.reply == ErrorHandler.Forward(None, UntypedParameter) && t.store == s
  {
    var session := OpenSession(req, s, env);
    assert session.Opened?;
  }

  /** With the placeholder corrected, the same turn commits. */
  lemma IntendedResumeCommits<P>(req: Request, s: Store, p: P, env: Env<P>)
    requires HealthyResume(req, s, env)
    ensures Turn(req, s, p, env, Intended).reply.Respond?
  {
    var session := OpenSession(req, s, env);
    assert session.Opened?;
  }

  /** The proposed statements run on the shared pool, outside the
      transaction: when the turn throws after running them (because a
      `null` in the list stopped the batch, or because the reply lacks
      `ai_text`) the rollback restores the chat tables but not what those
      statements did. */
  lemma ProposedStatementsSurviveRollback<P>(req: Request, s: Store, p: P, env: Env<P>, variant: TouchVariant)
    requires Truthy(req.prompt) && IsActuallyNew(req.newChat, req.id) && req.prompt.Str?
    requires env.faults == map[] && env.freshId !in s.chats
    requires ModelReply(req, env).result.Text?
    requires env.parse(ModelReply(req, env).result.text).Parsed?
    requires var e := env.parse(ModelReply(req, env).result.text).envelope;
      && CollectStatements(e).Collected?
      && (e.aiText.None? || (CollectStatements(e).arg.Array? && !QueryExecutor.NoNull(CollectStatements(e).arg.items)))
    ensures var t := Turn(req, s, p, env, variant);
      var e := env.parse(ModelReply(req, env).result.text).envelope;
      var ex := QueryExecutor.ExecuteQueries(CollectStatements(e).arg, p, env.run);
      && t.reply == ErrorHandler.Forward(None, if ex.Aborted? then QueryExecutor.NullLabelError else AiTextMissing)
      && t.store == s
      && t.pool == ex.store
  {
    var session := OpenSession(req, s, env);
    assert session.Opened?;
  }

  /** The reply is parsed as it came from the model, without the fence
      cleaning `processInvoice` applies: a reply wrapped in a code fence is a
      parse failure (JSON text cannot start with a backtick) and the turn
      rolls back, having made no model statement run. */
  lemma FencedReplyRollsBack<P>(req: Request, s: Store, p: P, env: Env<P>, variant: TouchVariant, body: string)
    requires Truthy(req.prompt)
    requires ModelReply(req, env).result == ModelGateway.Text("```json" + body + "```")
    requires forall x: string :: |x| > 0 && x[0] == '`' ==> env.parse(x).NotJson?
    ensures var t := Turn(req, s, p, env, variant);
      t.reply.Forward? && t.store == s && t.pool == p
  {
    var raw := "```json" + body + "```";
    assert env.parse(raw).NotJson? by {
      assert raw[0] == '`';
    }
    UnparsedTurnRollsBack(req, s, p, env, variant);
  }

  /** A turn whose model reply does not parse throws, leaving the chat
      tables and the pool as they were. */
  lemma UnparsedTurnRollsBack<P>(req: Request, s: Store, p: P, env: Env<P>, variant: TouchVariant)
    requires Truthy(req.prompt)
    requires ModelReply(req, env).result.Text? && env.parse(ModelReply(req, env).result.text).NotJson?
    ensures var t := Turn(req, s, p, env, variant);
      t.reply.Forward? && t.store == s && t.pool == p
  {
    match OpenSession(req, s, env)
    case SessionThrew(_, _, _) =>
    case Opened(chatId, _, execs, work) =>
      UnparsedReplyThrows(req, env, variant, chatId, execs, work, p);
  }

  /** A model reply that does not parse ends the try block before any
      statement runs. */
  lemma UnparsedReplyThrows<P>(req: Request, env: Env<P>, variant: TouchVariant, chatId: string,
                               execs: seq<Transaction.Cmd>, work: Store, p: P)
    requires Transaction.AllExec(execs)
    requires ModelReply(req, env).result.Text? && env.parse(ModelReply(req, env).result.text).NotJson?
    ensures var r := AfterSession(req, env, variant, chatId, execs, work, p);
      r.Threw? && r.pool == p && r.execs == execs
  {
  }
}

=== FILE: error_handler.dfy ===
/** What a handler hands back to the web framework, and the application's
    error middleware (middlewares/errorHandler.js) that turns a forwarded
    error into the JSON error response. */
module ErrorHandler {
  import opened JsValues

  /** A handler either answers itself or forwards an error to the error
      middleware (`next(err)`, or a rejected `asyncHandler` promise). In the
      second case `statusSet` is the status the handler set with
      `res.status(..)` before throwing, if any. */
  datatype Reply<B> =
    | Respond(status: int, body: B)
    | Forward(statusSet: Option<int>, message: string)

  /** Node's `ServerResponse` starts with `statusCode` 200. */
  const DefaultStatusCode: int := 200

  /** The fields of an `Error` the middleware reads; `statusCode` is absent
      on plain `Error`s and on the driver's and the model SDK's errors. */
  datatype HttpError = HttpError(statusCode: Option<int>, message: string, stack: Option<string>)

  /** The JSON body; a `None` stack is a property the serialised body lacks. */
  datatype ErrorBody = ErrorBody(success: bool, message: string, stack: Option<string>, statusCode: int)

  datatype ErrorResponse = ErrorResponse(status: int, body: ErrorBody)

  const FallbackMessage: string := "Something went wrong"

  predicate IsDevelopment(nodeEnv: Option<string>) {
    nodeEnv == Some("development")
  }

  /** The error middleware. */
  function Handle(err: HttpError, resStatusCode: int, nodeEnv: Option<string>): (r: ErrorResponse)
    // status: the error's own code, else the response's, else 500
    ensures err.statusCode.Some? && err.statusCode.value != 0 ==> r.status == err.statusCode.value
    ensures (err.statusCode.None? || err.statusCode.value == 0) && resStatusCode != 0 ==> r.status == resStatusCode
    ensures (err.statusCode.None? || err.statusCode.value == 0) && resStatusCode == 0 ==> r.status == 500
    ensures r.status != 0
    // body
    ensures !r.body.success
    ensures r.body.statusCode == r.status
    ensures err.message != "" ==> r.body.message == err.message
    ensures err.message == "" ==> r.body.message == FallbackMessage
    // the stack leaves the server only in development
    ensures r.body.stack.Some? ==> IsDevelopment(nodeEnv)
    ensures IsDevelopment(nodeEnv) ==> r.body.stack == err.stack
  {
    var status :=
      if err.statusCode.Some? && err.statusCode.value != 0 then err.statusCode.value
      else if resStatusCode != 0 then resStatusCode
      else 500;
    var message := if err.message != "" then err.message else FallbackMessage;
    var stack := if IsDevelopment(nodeEnv) then err.stack else None;
    ErrorResponse(status, ErrorBody(false, message, stack, status))
  }

  /** What reaches the client from a handler's reply. */
  datatype Delivered<B> = HandlerJson(status: int, body: B) | ErrorJson(response: ErrorResponse)

  function Deliver<B>(r: Reply<B>, stack: Option<string>, nodeEnv: Option<string>): (d: Delivered<B>)
    ensures r.Respond? <==> d.HandlerJson?
    ensures r.Respond? ==> d == HandlerJson(r.status, r.body)
    ensures r.Forward? ==> !d.response.body.success && d.response.body.message == OrText(Some(r.message), FallbackMessage)
  {
    match r
    case Respond(status, body) => HandlerJson(status, body)
    case Forward(statusSet, message) =>
      ErrorJson(Handle(HttpError(None, message, stack), statusSet.GetOr(DefaultStatusCode), nodeEnv))
  }

  /** A handler that throws without calling `res.status(..)` first leaves
      the default 200 in place, and the middleware keeps it: the client gets
      an error body with status 200, never the 500 fallback. */
  lemma UnsetStatusReachesClientAs200<B>(message: string, stack: Option<string>, nodeEnv: Option<string>)
    ensures Deliver<B>(Forward(None, message), stack, nodeEnv) == ErrorJson(
      ErrorResponse(200, ErrorBody(false, OrText(Some(message), FallbackMessage),
        if IsDevelopment(nodeEnv) then stack else None, 200)))
  {
  }

  /** A status set by the handler is what the client sees. */
  lemma SetStatusReachesClient<B>(status: int, message: string, stack: Option<string>, nodeEnv: Option<string>)
    requires status != 0
    ensures var d := Deliver<B>(Forward(Some(status), message), stack, nodeEnv);
      d.ErrorJson? && d.response.status == status && d.response.body.statusCode == status
  {
  }
}

=== FILE: expiry.dfy ===
/** The expiry handlers (controller/expiringController.js): the look-ahead
    window for expiring stock, the transactional move of a medicine from
    stock to expiry stock, and the lookup of one expiry record. */
module Expiry {
  import opened JsValues
  import JsStrings
  import JsNumbers
  import Transaction
  import QueryExecutor
  import ErrorHandler

  // ---------------------------------------------------------------------
  // handleExpiringMedicines
  // ---------------------------------------------------------------------

  datatype Unit = Day | Month | Year

  /** The look-ahead window: a positive count of days, months or years. */
  datatype Window = Window(count: nat, unit: Unit)

  /** `!isNaN(n) && n > 0` on a `parseInt` result. */
  predicate UsableCount(n: Option<int>) {
    n.Some? && n.value > 0
  }

  /** The window chosen from the query parameters `days`, `months` and
      `years` (each possibly absent), parsed with `parseInt`'s automatic
      radix. */
  function SelectWindow(days: Option<string>, months: Option<string>, years: Option<string>): (w: Option<Window>)
    // days win whenever usable, then months, then years
    ensures var d := JsNumbers.ParseIntParam(days, JsNumbers.AutoRadix);
      UsableCount(d) ==> w == Some(Window(d.value, Day))
    ensures var d := JsNumbers.ParseIntParam(days, JsNumbers.AutoRadix);
      var m := JsNumbers.ParseIntParam(months, JsNumbers.AutoRadix);
      !UsableCount(d) && UsableCount(m) ==> w == Some(Window(m.value, Month))
    ensures var d := JsNumbers.ParseIntParam(days, JsNumbers.AutoRadix);
      var m := JsNumbers.ParseIntParam(months, JsNumbers.AutoRadix);
      var y := JsNumbers.ParseIntParam(years, JsNumbers.AutoRadix);
      !UsableCount(d) && !UsableCount(m) && UsableCount(y) ==> w == Some(Window(y.value, Year))
    // no window at all exactly when none of the three is usable
    ensures w.None? <==>
      && !UsableCount(JsNumbers.ParseIntParam(days, JsNumbers.AutoRadix))
      && !UsableCount(JsNumbers.ParseIntParam(months, JsNumbers.AutoRadix))
      && !UsableCount(JsNumbers.ParseIntParam(years, JsNumbers.AutoRadix))
    ensures w.Some? ==> w.value.count > 0
  {
    var d := JsNumbers.ParseIntParam(days, JsNumbers.AutoRadix);
    var m := JsNumbers.ParseIntParam(months, JsNumbers.AutoRadix);
    var y := JsNumbers.ParseIntParam(years, JsNumbers.AutoRadix);
    if UsableCount(d) then Some(Window(d.value, Day))
    else if UsableCount(m) then Some(Window(m.value, Month))
    else if UsableCount(y) then Some(Window(y.value, Year))
    else None
  }

  function UnitName(u: Unit): string {
    match u
    case Day => "DAY"
    case Month => "MONTH"
    case Year => "YEAR"
  }

  /** The text spliced into `INTERVAL '...'`: `${n} DAY` and so on. */
  function IntervalText(w: Window): string {
    JsNumbers.ShowInt(w.count) + " " + UnitName(w.unit)
  }

  /** The spliced text is the count's digits and a unit keyword: it carries
      no quote that could end the SQL literal, whatever the query string
      held, and reading its number back gives the count. */
  lemma IntervalTextIsSafe(w: Window)
    ensures forall i :: 0 <= i < |IntervalText(w)| ==> IntervalText(w)[i] != '\''
    ensures JsNumbers.ParseInt(IntervalText(w), JsNumbers.Decimal) == Some(w.count)
  {
    var digits := JsNumbers.ShowNat(w.count);
    var tail := " " + UnitName(w.unit);
    var t := IntervalText(w);
    assert t == digits + tail;
    forall i | 0 <= i < |t|
      ensures t[i] != '\''
    {
      if i < |digits| {
        assert t[i] == digits[i] && JsNumbers.IsDecDigit(digits[i]);
      } else {
        assert t[i] == tail[i - |digits|];
      }
    }
    JsNumbers.ParseIntShowInt(w.count, tail, JsNumbers.Decimal);
  }

  /** The answers of the handler; the first two are the handler's own error
      bodies (under `error` and `message`). */
  datatype ExpiringBody =
    | MissingWindow(error: string)
    | NoneExpiring(message: string)
    | Expiring(count: nat, rows: seq<QueryExecutor.Row>)

  const MissingWindowMessage: string := "Please provide a valid query parameter: \"days\", \"months\", or \"years\"."
  const NoneExpiringMessage: string := "No expiring medicines found"

  /** `handleExpiringMedicines`. `query` runs the SELECT with the given
      interval text on the pool. */
  function ExpiringMedicines(days: Option<string>, months: Option<string>, years: Option<string>,
                             query: string -> QueryExecutor.DbReply): (r: ErrorHandler.Reply<ExpiringBody>)
    // no usable parameter: 400 and no query
    ensures SelectWindow(days, months, years).None? ==> r == ErrorHandler.Respond(400, MissingWindow(MissingWindowMessage))
    ensures SelectWindow(days, months, years).Some? ==>
      var reply := query(IntervalText(SelectWindow(days, months, years).value));
      && (reply.DbError? ==> r == ErrorHandler.Forward(None, reply.message))
      && (reply.Rows? && reply.rows == [] ==> r == ErrorHandler.Respond(404, NoneExpiring(NoneExpiringMessage)))
      && (reply.Rows? && reply.rows != [] ==> r == ErrorHandler.Respond(200, Expiring(|reply.rows|, reply.rows)))
    // the reported count is the number of rows
    ensures r.Respond? && r.body.Expiring? ==> r.status == 200 && r.body.count == |r.body.rows| > 0
  {
    match SelectWindow(days, months, years)
    case None => ErrorHandler.Respond(400, MissingWindow(MissingWindowMessage))
    case Some(w) =>
      match query(IntervalText(w))
      case DbError(msg) => ErrorHandler.Forward(None, msg)
      case Rows(_, _, rows) =>
        if rows == [] then ErrorHandler.Respond(404, NoneExpiring(NoneExpiringMessage))
        else ErrorHandler.Respond(200, Expiring(|rows|, rows))
  }

  /** `parseInt(<decimal rendering of n> + rest)` with the automatic radix. */
  lemma ReadsBack(n: int, rest: string, text: string)
    requires text == JsNumbers.ShowInt(n) + rest
    requires JsNumbers.EndsDecimalRun(JsNumbers.ShowInt(n), rest, JsNumbers.AutoRadix)
    ensures JsNumbers.ParseIntParam(Some(text), JsNumbers.AutoRadix) == Some(n)
  {
    JsNumbers.ParseIntShowInt(n, rest, JsNumbers.AutoRadix);
  }

  /** Only the number read from a parameter matters: text after the
      digits that does not continue them ("7 days") selects the same window
      as the bare number ("7"), and a positive `days` wins outright. */
  lemma TrailingTextIgnored(n: int, rest: string, months: Option<string>, years: Option<string>)
    requires JsNumbers.EndsDecimalRun(JsNumbers.ShowInt(n), rest, JsNumbers.AutoRadix)
    ensures var text := JsNumbers.ShowInt(n) + rest;
      SelectWindow(Some(text), months, years) == SelectWindow(Some(JsNumbers.ShowInt(n)), months, years)
    ensures n > 0 ==> SelectWindow(Some(JsNumbers.ShowInt(n) + rest), months, years) == Some(Window(n, Day))
  {
    ReadsBack(n, rest, JsNumbers.ShowInt(n) + rest);
    assert JsNumbers.ShowInt(n) + [] == JsNumbers.ShowInt(n);
    ReadsBack(n, [], JsNumbers.ShowInt(n));
  }

  /** With the automatic radix a "0x" prefix reads hexadecimal: "0x1f" is
      a 31-day window. */
  lemma HexadecimalCount()
    ensures SelectWindow(Some("0x1f"), None, None) == Some(Window(31, Day))
  {
    var s := "0x1f";
    HexPrefixOf(s);
    HexDigitsOf("1f");
    JsNumbers.ReadsRun(s, JsNumbers.AutoRadix, "1f", 2);
    assert JsNumbers.ParseIntParam(Some(s), JsNumbers.AutoRadix) == Some(31);
  }

  lemma HexPrefixOf(s: string)
    requires s == "0x1f"
    ensures JsNumbers.HexMode(s, JsNumbers.AutoRadix) && JsNumbers.Unprefixed(s, JsNumbers.AutoRadix) == "1f"
    ensures !JsNumbers.Negative(s)
  {
    assert JsStrings.TrimStart(s) == s by {
      assert !JsStrings.IsSpace(s[0]);
    }
    assert JsNumbers.Unsigned(s) == s;
  }

  lemma HexDigitsOf(u: string)
    requires u == "1f"
    ensures JsNumbers.DigitRun(u, true) == 2 && JsNumbers.DigitsValue(u[..2], 16) == 31
  {
    assert JsNumbers.DigitRun("f", true) == 1 by {
      assert "f"[1..] == [];
    }
    assert u[1..] == "f";
    assert u[..2] == u && u[..1] == "1" && "1"[..0] == [];
    assert JsNumbers.DigitsValue("1", 16) == 1;
    assert JsNumbers.DigitValue(u[1]) == 15;
  }

  /** A zero or negative `days` passes the choice on to `months` and
      `years` exactly as an absent one does. */
  lemma NonPositiveSkipped(n: int, rest: string, months: Option<string>, years: Option<string>)
    requires n <= 0
    requires JsNumbers.EndsDecimalRun(JsNumbers.ShowInt(n), rest, JsNumbers.AutoRadix)
    ensures SelectWindow(Some(JsNumbers.ShowInt(n) + rest), months, years) == SelectWindow(None, months, years)
  {
    ReadsBack(n, rest, JsNumbers.ShowInt(n) + rest);
    JsNumbers.ParseIntUndefined(JsNumbers.AutoRadix);
  }

  // ---------------------------------------------------------------------
  // handleReturnMedicine
  // ---------------------------------------------------------------------

  /** The twelve columns a medicine carries from `medicine_stock` into
      `expiry_stock`. */
  datatype Medicine = Medicine(
    invoiceId: Value,
    medicineId: int,
    name: Value,
    brand: Value,
    quantity: Value,
    mfgDate: Value,
    expiryDate: Value,
    purchasePrice: Value,
    mrp: Value,
    batchNo: Value,
    packedType: Value,
    invoiceNo: Value)

  /** The two tables: stock keyed by medicine id, and the expiry rows in
      insertion order (their own ids and timestamps are not modelled). */
  datatype Shelves = Shelves(stock: map<int, Medicine>, expiry: seq<Medicine>)

  /** Stock is keyed by the row's own `medicine_id` column. */
  predicate Keyed(sh: Shelves) {
    forall k :: k in sh.stock ==> sh.stock[k].medicineId == k
  }

  /** The client statements that can fail. `NotFoundRollback` is the
      ROLLBACK the try block sends itself when nothing was deleted. */
  datatype MoveStep = BeginMove | DeleteMove | NotFoundRollback | InsertMove | CommitMove

  datatype MoveBody = MoveFailed(message: string) | Moved(medicineId: int, name: Value)

  const MedicineNotInStock: string := "Medicine not found in stock."
  const MoveServerError: string := "Server error processing return."

  datatype MoveOutcome = MoveOutcome(reply: ErrorHandler.Reply<MoveBody>, shelves: Shelves, trace: seq<Transaction.Cmd>)

  /** `handleReturnMedicine`. `castInt` is the database's conversion of the
      route text to the key (`None` when it refuses the text, which fails
      the DELETE); `faults` are the statements that fail. */
  function ReturnMedicine(id: string, sh: Shelves, castInt: string -> Option<int>, faults: set<MoveStep>): (o: MoveOutcome)
    requires Keyed(sh)
    // the table stays keyed by its id column
    ensures Keyed(o.shelves)
    // the handler always answers itself
    ensures o.reply.Respond?
    // an id not in stock: 404, nothing changed; if that ROLLBACK itself
    // fails, the catch block answers 500 instead
    ensures BeginMove !in faults && DeleteMove !in faults && castInt(id).Some? && castInt(id).value !in sh.stock ==>
      && o.shelves == sh
      && (NotFoundRollback !in faults ==> o.reply == ErrorHandler.Respond(404, MoveFailed(MedicineNotInStock)))
      && (NotFoundRollback in faults ==> o.reply == ErrorHandler.Respond(500, MoveFailed(MoveServerError)))
    // success moves the row, all twelve columns, from stock to expiry
    ensures o.reply.status == 200 <==>
      && BeginMove !in faults && DeleteMove !in faults && InsertMove !in faults && CommitMove !in faults
      && castInt(id).Some? && castInt(id).value in sh.stock
    ensures o.reply.status == 200 ==>
      var key := castInt(id).value;
      && o.shelves.stock == sh.stock - {key}
      && o.shelves.expiry == sh.expiry + [sh.stock[key]]
      && o.reply.body == Moved(key, sh.stock[key].name)
    // every other outcome leaves both tables as they were
    ensures o.reply.status != 200 ==> o.shelves == sh
    ensures o.reply.status !in {200, 404} ==> o.reply == ErrorHandler.Respond(500, MoveFailed(MoveServerError))
  {
    var fail := ErrorHandler.Respond(500, MoveFailed(MoveServerError));
    var delete := [Transaction.Exec("DELETE FROM medicine_stock")];
    if BeginMove in faults then MoveOutcome(fail, sh, Transaction.Bracket([], Transaction.RolledBack))
    else if DeleteMove in faults || castInt(id).None? then
      MoveOutcome(fail, sh, Transaction.Bracket(delete, Transaction.RolledBack))
    else
      var key := castInt(id).value;
      if key !in sh.stock then
        if NotFoundRollback in faults then MoveOutcome(fail, sh, Transaction.Bracket(delete, Transaction.RollbackFailed))
        else MoveOutcome(ErrorHandler.Respond(404, MoveFailed(MedicineNotInStock)), sh, Transaction.Bracket(delete, Transaction.RolledBack))
      else
        var m := sh.stock[key];
        var execs := delete + [Transaction.Exec("INSERT INTO expiry_stock")];
        if InsertMove in faults then MoveOutcome(fail, sh, Transaction.Bracket(execs, Transaction.RolledBack))
        else if CommitMove in faults then MoveOutcome(fail, sh, Transaction.Bracket(execs, Transaction.CommitFailed))
        else
          MoveOutcome(ErrorHandler.Respond(200, Moved(m.medicineId, m.name)),
                      Shelves(sh.stock - {key}, sh.expiry + [m]),
                      Transaction.Bracket(execs, Transaction.Committed))
  }

  /** Every path is bracketed, releases the connection once, and commits
      exactly on success. */
  lemma ReturnIsBracketed(id: string, sh: Shelves, castInt: string -> Option<int>, faults: set<MoveStep>)
    requires Keyed(sh)
    ensures var o := ReturnMedicine(id, sh, castInt, faults);
      && Transaction.Bracketed(o.trace)
      && Transaction.Releases(o.trace) == 1
      && (Transaction.EndsCommitted(o.trace) <==> o.reply.status == 200)
  {
    var delete := [Transaction.Exec("DELETE FROM medicine_stock")];
    var execs := delete + [Transaction.Exec("INSERT INTO expiry_stock")];
    if BeginMove in faults {
      Transaction.BracketShape([], Transaction.RolledBack);
    } else if DeleteMove in faults || castInt(id).None? {
      Transaction.BracketShape(delete, Transaction.RolledBack);
    } else if castInt(id).value !in sh.stock {
      Transaction.BracketShape(delete, if NotFoundRollback in faults then Transaction.RollbackFailed else Transaction.RolledBack);
    } else if InsertMove in faults {
      Transaction.BracketShape(execs, Transaction.RolledBack);
    } else if CommitMove in faults {
      Transaction.BracketShape(execs, Transaction.CommitFailed);
    } else {
      Transaction.BracketShape(execs, Transaction.Committed);
    }
  }

  /** The move conserves medicines: one fewer in stock, one more in expiry,
      and that one is the medicine that left. */
  lemma MoveConserves(id: string, sh: Shelves, castInt: string -> Option<int>)
    requires Keyed(sh)
    requires castInt(id).Some? && castInt(id).value in sh.stock
    ensures var o := ReturnMedicine(id, sh, castInt, {});
      var m := sh.stock[castInt(id).value];
      && |o.shelves.stock| + |o.shelves.expiry| == |sh.stock| + |sh.expiry|
      && multiset(o.shelves.expiry) == multiset(sh.expiry) + multiset{m}
      && castInt(id).value !in o.shelves.stock
  {
    var key := castInt(id).value;
    assert sh.stock.Keys == (sh.stock - {key}).Keys + {key};
  }

  /** Moving the same medicine twice: the second attempt finds nothing in
      stock and changes nothing. */
  lemma SecondMoveNotFound(id: string, sh: Shelves, castInt: string -> Option<int>)
    requires Keyed(sh)
    requires castInt(id).Some? && castInt(id).value in sh.stock
    ensures var first := ReturnMedicine(id, sh, castInt, {});
      var second := ReturnMedicine(id, first.shelves, castInt, {});
      second.reply.status == 404 && second.shelves == first.shelves
  {
  }

  // ---------------------------------------------------------------------
  // getExpiryMedicineInfoById
  // ---------------------------------------------------------------------

  datatype InfoBody = InfoBody(status: string, message: string, medicine: seq<QueryExecutor.Row>)

  const IdRequired: string := "Valid ID is required"
  const NoRecordPrefix: string := "No expiry record found by this id: "

  /** `getExpiryMedicineInfoById`: both guards throw without setting a
      status. The whole row list is answered, not its first row. */
  function ExpiryInfo(id: Option<string>, query: string -> QueryExecutor.DbReply): (r: ErrorHandler.Reply<InfoBody>)
    ensures id.None? || id.value == "" ==> r == ErrorHandler.Forward(None, IdRequired)
    ensures id.Some? && id.value != "" && query(id.value).Rows? ==>
      (query(id.value).rows == [] <==> r == ErrorHandler.Forward(None, NoRecordPrefix + id.value))
    ensures r.Respond? ==> r.status == 200 && query(id.value).Rows? && r.body.medicine == query(id.value).rows
                           && |r.body.medicine| > 0
    ensures r.Forward? ==> r.statusSet.None?
  {
    if id.None? || id.value == "" then ErrorHandler.Forward(None, IdRequired)
    else
      match query(id.value)
      case DbError(msg) => ErrorHandler.Forward(None, msg)
      case Rows(_, _, rows) =>
        if rows == [] then ErrorHandler.Forward(None, NoRecordPrefix + id.value)
        else ErrorHandler.Respond(200, InfoBody("success", "Expiry medicine info is found", rows))
  }

  /** Since neither guard sets a status, a missing id or an unknown record
      reaches the client as an error body with status 200. */
  lemma UnknownRecordAnswers200(id: string, query: string -> QueryExecutor.DbReply, stack: Option<string>, nodeEnv: Option<string>)
    requires id != "" && query(id) == QueryExecutor.Rows(0, None, [])
    ensures var d := ErrorHandler.Deliver(ExpiryInfo(Some(id), query), stack, nodeEnv);
      d.ErrorJson? && d.response.status == 200 && !d.response.body.success
      && d.response.body.message == NoRecordPrefix + id
  {
    ErrorHandler.UnsetStatusReachesClientAs200<InfoBody>(NoRecordPrefix + id, stack, nodeEnv);
  }
}

=== FILE: invoice_extraction.dfy ===
/** `processInvoice` (controller/aiController.js): one model call on an
    uploaded invoice image or PDF, no retry; the reply is cleaned of
    Markdown code fences and parsed as JSON. `JSON.parse` is an oracle that
    yields a document or throws (`None`). */
module InvoiceExtraction {
  import opened JsValues
  import JsStrings
  import ModelGateway
  import ErrorHandler

  const JsonFence: string := "```json"
  const Fence: string := "```"

  /** Removes every "```json", then every "```", then trims. */
  function CleanFences(s: string): (r: string)
    ensures r == [] || (!JsStrings.IsSpace(r[0]) && !JsStrings.IsSpace(r[|r| - 1]))
  {
    JsStrings.Trim(JsStrings.RemoveAll(JsStrings.RemoveAll(s, JsonFence), Fence))
  }

  /** Wrapping backtick-free text in a "```json" ... "```" block, with any
      whitespace inside the fences, does not change what is parsed. */
  lemma FencedCleansLikeBare(w1: string, t: string, w2: string)
    requires JsStrings.NoChar(t, '`') && JsStrings.AllSpace(w1) && JsStrings.AllSpace(w2)
    ensures CleanFences(JsonFence + w1 + t + w2 + Fence) == CleanFences(t)
  {
    var x := w1 + t + w2;
    assert JsStrings.NoChar(x, '`') by {
      forall i | 0 <= i < |x|
        ensures x[i] != '`'
      {
        if i < |w1| {
          assert x[i] == w1[i] && JsStrings.IsSpace(w1[i]);
        } else if i < |w1| + |t| {
          assert x[i] == t[i - |w1|];
        } else {
          assert x[i] == w2[i - |w1| - |t|] && JsStrings.IsSpace(w2[i - |w1| - |t|]);
        }
      }
    }
    assert JsonFence + w1 + t + w2 + Fence == JsonFence + (x + Fence);
    JsStrings.RemoveAllLeading(JsonFence, x + Fence);
    JsStrings.RemoveAllTail(x, Fence, JsonFence);
    JsStrings.RemoveAllTrailing(x, Fence);
    JsStrings.RemoveAllAbsent(t, JsonFence);
    JsStrings.RemoveAllAbsent(t, Fence);
    JsStrings.TrimPadded(w1, t, w2);
  }

  /** The uploaded file as multer holds it in memory. */
  datatype Upload = Upload(data: seq<bv8>, mimeType: string)

  /** The JSON body: a plain message, or the extracted document. */
  datatype ExtractBody<J> = Message(text: string) | Document(doc: J)

  const NoFileMessage: string := "No file uploaded."
  const UnreadableMessage: string := "Failed to process invoice. The AI model could not read the document."

  /** `processInvoice`: `generate` is the single model call on the fixed
      extraction prompt plus the file, `parse` is `JSON.parse`. */
  function ProcessInvoice<J>(file: Option<Upload>, generate: Upload -> ModelGateway.GenReply,
                             parse: string -> Option<J>): (r: ErrorHandler.Reply<ExtractBody<J>>)
    ensures r.Respond?
    ensures file.None? ==> r == ErrorHandler.Respond(400, Message(NoFileMessage))
    // success exactly when the model answered and its cleaned text parsed
    ensures r.status == 200 <==>
      file.Some? && generate(file.value).Text? && parse(CleanFences(generate(file.value).text)).Some?
    ensures r.status == 200 ==> r.body == Document(parse(CleanFences(generate(file.value).text)).value)
    // every failure after the upload check is the same fixed message: neither
    // the model's text nor the error is echoed
    ensures file.Some? && r.status != 200 ==> r == ErrorHandler.Respond(500, Message(UnreadableMessage))
  {
    if file.None? then ErrorHandler.Respond(400, Message(NoFileMessage))
    else
      match generate(file.value)
      case GenFailed(_) => ErrorHandler.Respond(500, Message(UnreadableMessage))
      case Text(raw) =>
        match parse(CleanFences(raw))
        case None => ErrorHandler.Respond(500, Message(UnreadableMessage))
        case Some(doc) => ErrorHandler.Respond(200, Document(doc))
  }

  /** A model that wraps its JSON in a code fence gets the same answer as
      one that returns the bare JSON. */
  lemma FencedReplyExtractsLikeBare<J>(f: Upload, t: string, parse: string -> Option<J>)
    requires JsStrings.NoChar(t, '`')
    ensures ProcessInvoice(Some(f), _ => ModelGateway.Text(JsonFence + "\n" + t + "\n" + Fence), parse)
         == ProcessInvoice(Some(f), _ => ModelGateway.Text(t), parse)
  {
    FencedCleansLikeBare("\n", t, "\n");
  }
}

=== FILE: invoice_payment.dfy ===
/** `updateInvoicePayment` (controller/invoicesController.js): records a
    payment against an invoice. The amount is validated, the invoice looked
    up, the new paid amount computed (added to the old one or replacing
    it), capped at the invoice total, classified Paid / Partial / Unpaid,
    and written back with the payment-date rule.

    Money is a real number rather than a binary float; the JavaScript NaN
    is kept, because the arithmetic can produce it. */
module InvoicePayment {
  import opened JsValues
  import ErrorHandler

  /** A JavaScript number: finite, or NaN. */
  datatype Float = Fin(value: real) | FloatNaN

  /** `amount` from the JSON body: missing, or present with the value it
      converts to under `Number(..)` (what `isNaN` and `<` look at) and
      under `parseFloat(..)` (what the arithmetic uses). For a JSON number
      the two agree; for `null`, `true`, `""` or `"0x10"` they do not. */
  datatype AmountInput = Missing | Supplied(asNumber: Float, asFloat: Float)

  /** A JSON number `x` in the body. */
  function NumberAmount(x: real): AmountInput {
    Supplied(Fin(x), Fin(x))
  }

  datatype PaymentStatus = Paid | Partial | Unpaid

  /** A calendar day; only equality matters. */
  type Date = int

  /** A row of `invoices`; `deleted` is `deleted_at IS NOT NULL`. */
  datatype Invoice = Invoice(
    invoiceNo: Value,
    total: real,
    paid: Float,
    status: PaymentStatus,
    paymentDate: Option<Date>,
    deleted: bool)

  type Invoices = map<int, Invoice>

  const InvalidAmount: string := "Please provide a valid non-negative amount"
  const InvoiceNotFound: string := "Invoice not found"
  const PaymentUpdated: string := "Payment updated successfully"
  const InvalidInteger: string := "invalid input syntax for type integer"

  /** The guard in front of everything: present, not NaN, not negative. */
  predicate ValidAmount(a: AmountInput) {
    a.Supplied? && a.asNumber.Fin? && a.asNumber.value >= 0.0
  }

  /** `onlyadd === true` adds to the old paid amount; anything else
      (including the string "true") replaces it. NaN is absorbing. */
  function NewPaid(onlyAdd: Value, current: Float, input: Float): (r: Float)
    ensures onlyAdd == Bool(true) && current.Fin? && input.Fin? ==> r == Fin(current.value + input.value)
    ensures onlyAdd == Bool(true) && (current.FloatNaN? || input.FloatNaN?) ==> r == FloatNaN
    ensures onlyAdd != Bool(true) ==> r == input
  {
    if onlyAdd == Bool(true) then
      if current.Fin? && input.Fin? then Fin(current.value + input.value) else FloatNaN
    else input
  }

  /** `newPaidAmount > currentTotal`; false for NaN. */
  predicate ExceedsTotal(paid: Float, total: real) {
    paid.Fin? && paid.value > total
  }

  /** Paid is checked first, then Partial; everything else, NaN included, is
      Unpaid. */
  function Classify(paid: Float, total: real): (s: PaymentStatus)
    ensures s == Paid <==> paid == Fin(total)
    ensures s == Partial <==> paid.Fin? && 0.0 < paid.value < total
    ensures s == Unpaid <==> paid.FloatNaN? || (paid.value != total && (paid.value <= 0.0 || paid.value > total))
  {
    if paid == Fin(total) then Paid
    else if paid.Fin? && 0.0 < paid.value && paid.value < total then Partial
    else Unpaid
  }

  /** The `CASE` of the update: today for Paid, cleared for Unpaid, kept for
      Partial. */
  function NextPaymentDate(s: PaymentStatus, previous: Option<Date>, today: Date): (d: Option<Date>)
    ensures s == Paid ==> d == Some(today)
    ensures s == Unpaid ==> d == None
    ensures s == Partial ==> d == previous
  {
    match s
    case Paid => Some(today)
    case Unpaid => None
    case Partial => previous
  }

  /** The JSON body of a successful update: the row as `RETURNING` gives it. */
  datatype PaymentBody = PaymentBody(success: bool, message: string, data: Invoice)

  datatype PaymentResult = PaymentResult(reply: ErrorHandler.Reply<PaymentBody>, invoices: Invoices)

  /** `updateInvoicePayment`. `castInt` is the database's conversion of the
      route text to the integer key (`None` when it refuses the text);
      `show` is JavaScript's number-to-text conversion used in the cap
      message; `updateFault` is the message of a refused UPDATE, if any. */
  function UpdatePayment(id: string, onlyAdd: Value, amount: AmountInput, invoices: Invoices,
                         castInt: string -> Option<int>, show: real -> string,
                         today: Date, updateFault: Option<string>): (r: PaymentResult)
    // the amount is checked before the invoice is looked up
    ensures !ValidAmount(amount) ==> r == PaymentResult(ErrorHandler.Forward(Some(400), InvalidAmount), invoices)
    ensures ValidAmount(amount) && castInt(id).Some? ==>
      var key := castInt(id).value;
      (key !in invoices || invoices[key].deleted <==> r.reply == ErrorHandler.Forward(Some(404), InvoiceNotFound))
    // a payment beyond the total is refused
    ensures ValidAmount(amount) && castInt(id).Some? && castInt(id).value in invoices && !invoices[castInt(id).value].deleted ==>
      var inv := invoices[castInt(id).value];
      var paid := NewPaid(onlyAdd, inv.paid, amount.asFloat);
      && (ExceedsTotal(paid, inv.total) ==>
            r == PaymentResult(ErrorHandler.Forward(Some(400), CapMessage(paid.value, inv.total, show)), invoices))
      // below the cap, only a refused UPDATE stops the payment
      && (!ExceedsTotal(paid, inv.total) ==> (r.reply.Respond? <==> updateFault.None?))
    // the invoices change only by a successful update, and then only the one row
    ensures r.reply.Forward? ==> r.invoices == invoices
    ensures r.reply.Respond? ==>
      && r.reply.status == 200 && r.reply.body.success
      && castInt(id).Some? && castInt(id).value in invoices
      && r.invoices == invoices[castInt(id).value := r.reply.body.data]
    // the stored row: the rule's paid amount, its classification, and the
    // payment date of that status (today, cleared, or kept)
    ensures r.reply.Respond? && castInt(id).Some? && castInt(id).value in invoices ==>
      var inv := invoices[castInt(id).value];
      var row := r.reply.body.data;
      var paid := NewPaid(onlyAdd, inv.paid, amount.asFloat);
      && row.paid == paid && row.status == Classify(paid, inv.total)
      && (row.status == Paid ==> row.paymentDate == Some(today))
      && (row.status == Unpaid ==> row.paymentDate == None)
      && (row.status == Partial ==> row.paymentDate == inv.paymentDate)
      && row.invoiceNo == inv.invoiceNo && row.total == inv.total && !row.deleted
  {
    if !ValidAmount(amount) then PaymentResult(ErrorHandler.Forward(Some(400), InvalidAmount), invoices)
    else if castInt(id).None? then PaymentResult(ErrorHandler.Forward(None, InvalidInteger), invoices)
    else
      var key := castInt(id).value;
      if key !in invoices || invoices[key].deleted then
        PaymentResult(ErrorHandler.Forward(Some(404), InvoiceNotFound), invoices)
      else
        var inv := invoices[key];
        var paid := NewPaid(onlyAdd, inv.paid, amount.asFloat);
        if ExceedsTotal(paid, inv.total) then
          PaymentResult(ErrorHandler.Forward(Some(400), CapMessage(paid.value, inv.total, show)), invoices)
        else if updateFault.Some? then
          PaymentResult(ErrorHandler.Forward(None, updateFault.value), invoices)
        else
          var status := Classify(paid, inv.total);
          var row := inv.(paid := paid, status := status,
                          paymentDate := NextPaymentDate(status, inv.paymentDate, today));
          PaymentResult(ErrorHandler.Respond(200, PaymentBody(true, PaymentUpdated, row)), invoices[key := row])
  }

  /** The cap message names both amounts ("\U{20B9}" is the rupee sign). */
  function CapMessage(paid: real, total: real, show: real -> string): string {
    "Payment failed. Total paid amount (\U{20B9}" + show(paid) + ") cannot exceed the invoice total (\U{20B9}"
      + show(total) + ")."
  }

  // ---------------------------------------------------------------------
  // Properties
  // ---------------------------------------------------------------------

  /** A row whose amounts and status agree: a finite paid amount between 0
      and the total, the status its classification, a payment date on every
      Paid row and none on an Unpaid one (a Partial row may have either). */
  predicate Settled(inv: Invoice) {
    && inv.paid.Fin? && 0.0 <= inv.paid.value <= inv.total
    && inv.status == Classify(inv.paid, inv.total)
    && (inv.status == Paid ==> inv.paymentDate.Some?)
    && (inv.status == Unpaid ==> inv.paymentDate.None?)
  }

  /** A successful payment of a JSON number leaves the row settled; when it
      adds, the row must have been settled before (its paid amount is not
      negative); when it replaces, the old row does not matter. */
  lemma PaymentKeepsSettled(id: string, onlyAdd: Value, x: real, invoices: Invoices,
                            castInt: string -> Option<int>, show: real -> string, today: Date)
    requires castInt(id).Some? && castInt(id).value in invoices
    requires onlyAdd == Bool(true) ==> Settled(invoices[castInt(id).value])
    ensures var r := UpdatePayment(id, onlyAdd, NumberAmount(x), invoices, castInt, show, today, None);
      r.reply.Respond? ==> Settled(r.reply.body.data) && r.invoices[castInt(id).value] == r.reply.body.data
  {
  }

  /** The amount that a successful payment stores is the rule's amount,
      never more than the total. */
  lemma StoredPaidIsCapped(id: string, onlyAdd: Value, amount: AmountInput, invoices: Invoices,
                           castInt: string -> Option<int>, show: real -> string, today: Date, fault: Option<string>)
    ensures var r := UpdatePayment(id, onlyAdd, amount, invoices, castInt, show, today, fault);
      r.reply.Respond? ==>
        var inv := invoices[castInt(id).value];
        && r.reply.body.data.paid == NewPaid(onlyAdd, inv.paid, amount.asFloat)
        && !ExceedsTotal(r.reply.body.data.paid, inv.total)
        && r.reply.body.data.total == inv.total && r.reply.body.data.invoiceNo == inv.invoiceNo
  {
  }

  /** Paying `a` and then `b` in adding mode ends with the same paid amount
      and status as paying `a + b` at once, and both ways are accepted or
      refused together. */
  lemma {:induction false} SplitPayment(id: string, a: real, b: real, invoices: Invoices,
                                        castInt: string -> Option<int>, show: real -> string, t1: Date, t2: Date)
    requires a >= 0.0 && b >= 0.0
    requires castInt(id).Some? && castInt(id).value in invoices && Settled(invoices[castInt(id).value])
    ensures var key := castInt(id).value;
      var first := UpdatePayment(id, Bool(true), NumberAmount(a), invoices, castInt, show, t1, None);
      var second := UpdatePayment(id, Bool(true), NumberAmount(b), first.invoices, castInt, show, t2, None);
      var once := UpdatePayment(id, Bool(true), NumberAmount(a + b), invoices, castInt, show, t2, None);
      && (first.reply.Respond? && second.reply.Respond? <==> once.reply.Respond?)
      && (once.reply.Respond? ==>
            second.invoices[key].paid == once.invoices[key].paid
            && second.invoices[key].status == once.invoices[key].status)
  {
    var key := castInt(id).value;
    var inv := invoices[key];
    var first := UpdatePayment(id, Bool(true), NumberAmount(a), invoices, castInt, show, t1, None);
    if !inv.deleted && inv.paid.value + a <= inv.total {
      assert first.reply.Respond?;
      assert first.invoices[key].paid == Fin(inv.paid.value + a);
    }
  }

  /** Replacing the paid amount is idempotent: the same replacement applied
      twice leaves the invoices as applying it once. */
  lemma ReplaceIdempotent(id: string, onlyAdd: Value, amount: AmountInput, invoices: Invoices,
                          castInt: string -> Option<int>, show: real -> string, today: Date)
    requires onlyAdd != Bool(true)
    ensures var once := UpdatePayment(id, onlyAdd, amount, invoices, castInt, show, today, None);
      UpdatePayment(id, onlyAdd, amount, once.invoices, castInt, show, today, None).invoices == once.invoices
  {
    var once := UpdatePayment(id, onlyAdd, amount, invoices, castInt, show, today, None);
    if once.reply.Respond? {
      var key := castInt(id).value;
      var row := once.invoices[key];
      assert row.status == Classify(amount.asFloat, row.total);
      assert once.invoices[key := row.(paymentDate := NextPaymentDate(row.status, row.paymentDate, today))]
          == once.invoices;
    }
  }

  /** A `null` amount passes the guard (`Number(null)` is 0) but
      `parseFloat(null)` is NaN, so a replacement stores NaN and marks the
      invoice Unpaid. */
  lemma NullAmountStoresNaN(id: string, invoices: Invoices, castInt: string -> Option<int>,
                            show: real -> string, today: Date)
    requires castInt(id).Some? && castInt(id).value in invoices && !invoices[castInt(id).value].deleted
    ensures var r := UpdatePayment(id, Null, Supplied(Fin(0.0), FloatNaN), invoices, castInt, show, today, None);
      r.reply.Respond? && r.reply.body.data.paid == FloatNaN && r.reply.body.data.status == Unpaid
      && r.reply.body.data.paymentDate.None?
  {
  }
}

=== FILE: invoice_update.dfy ===
/** `updateInvoice` (controller/invoicesController.js): a partial update of
    an invoice. Only the fields present in the body are set, each with the
    next numbered placeholder; `updated_at` is always set; the key goes in
    the last placeholder. Invoice existence and the wholesaler lookup are
    services outside this file and are parameters here. */
module InvoiceUpdate {
  import opened JsValues
  import JsNumbers
  import SqlBinding
  import QueryExecutor
  import ErrorHandler

  /** The columns the body can set, in the order the handler tests them. */
  datatype Column = InvoiceNo | InvoiceDate | PaymentStatus | PaidAmount | WholesalerId

  function Rank(c: Column): nat {
    match c
    case InvoiceNo => 0
    case InvoiceDate => 1
    case PaymentStatus => 2
    case PaidAmount => 3
    case WholesalerId => 4
  }

  /** The body; `None` is a property that is `undefined` (absent). A JSON
      `null` is present and is written. */
  datatype UpdateRequest = UpdateRequest(
    invoiceNo: Option<Value>,
    invoiceDate: Option<Value>,
    paymentStatus: Option<Value>,
    paidAmount: Option<Value>,
    wholesalerName: Option<Value>)

  /** One value to set. */
  datatype Field = Field(column: Column, value: Value)

  /** One item of the SET list: `<column> = $<param>`, or the trailing
      `updated_at = CURRENT_TIMESTAMP`. */
  datatype SetClause = Assign(column: Column, param: nat) | TouchUpdatedAt

  /** The statement sent: SET list, the placeholder of `WHERE invoice_id`,
      and the value list. */
  datatype UpdateStatement = UpdateStatement(clauses: seq<SetClause>, wherePlaceholder: nat, values: seq<Value>)

  /** The placeholders of a SET list in order of appearance. */
  function ParamsOf(cs: seq<SetClause>): seq<nat> {
    if cs == [] then []
    else ParamsOf(cs[..|cs| - 1]) + (if cs[|cs| - 1].Assign? then [cs[|cs| - 1].param] else [])
  }

  /** Every placeholder of the statement in order of appearance. */
  function Placeholders(st: UpdateStatement): seq<nat> {
    ParamsOf(st.clauses) + [st.wherePlaceholder]
  }

  /** A list of assignments numbered from `$1` uses `$1 .. $n` in order. */
  lemma {:induction false} NumberedParams(cs: seq<SetClause>)
    requires forall i :: 0 <= i < |cs| ==> cs[i].Assign? && cs[i].param == i + 1
    ensures |ParamsOf(cs)| == |cs| && SqlBinding.Consecutive(ParamsOf(cs))
  {
    if cs != [] {
      NumberedParams(cs[..|cs| - 1]);
    }
  }

  function Present(c: Column, x: Option<Value>): seq<Field> {
    if x.Some? then [Field(c, x.value)] else []
  }

  /** The supplied fields in the handler's order; the wholesaler's id is
      the one the lookup returned for the supplied name. */
  function Supplied(req: UpdateRequest, wholesaler: Value): (fs: seq<Field>)
    ensures forall i, j :: 0 <= i < j < |fs| ==> Rank(fs[i].column) < Rank(fs[j].column)
  {
    Present(InvoiceNo, req.invoiceNo) + Present(InvoiceDate, req.invoiceDate)
      + Present(PaymentStatus, req.paymentStatus) + Present(PaidAmount, req.paidAmount)
      + (if req.wholesalerName.Some? then [Field(WholesalerId, wholesaler)] else [])
  }

  /** The statement for the supplied fields and the parsed key. */
  function Statement(fs: seq<Field>, key: Value): (st: UpdateStatement)
    // placeholders are $1 .. $k+1 in order, and exactly k+1 values go with them
    ensures SqlBinding.Consecutive(Placeholders(st))
    ensures SqlBinding.Aligned(Placeholders(st), |st.values|)
    ensures |st.values| == |fs| + 1 && st.wherePlaceholder == |fs| + 1
    // each supplied field is set, in order, to its own value; the key is last
    ensures |st.clauses| == |fs| + 1 && st.clauses[|fs|] == TouchUpdatedAt
    ensures forall i :: 0 <= i < |fs| ==>
      st.clauses[i] == Assign(fs[i].column, i + 1) && st.values[st.clauses[i].param - 1] == fs[i].value
    ensures st.values[|fs|] == key
  {
    var assigns := seq(|fs|, i requires 0 <= i < |fs| => Assign(fs[i].column, i + 1));
    var clauses := assigns + [TouchUpdatedAt];
    var values := seq(|fs|, i requires 0 <= i < |fs| => fs[i].value) + [key];
    var st := UpdateStatement(clauses, |fs| + 1, values);
    NumberedParams(assigns);
    assert clauses[..|clauses| - 1] == assigns;
    assert Placeholders(st) == ParamsOf(assigns) + [|fs| + 1];
    SqlBinding.ConsecutiveIsAligned(Placeholders(st));
    st
  }

  /** The handler's builder: a `paramIndex` counter walked over the
      supplied fields, pushing one SET item and one value each. */
  method BuildStatement(fs: seq<Field>, key: Value) returns (st: UpdateStatement)
    ensures st == Statement(fs, key)
  {
    var clauses: seq<SetClause> := [];
    var values: seq<Value> := [];
    var paramIndex := 1;
    var i := 0;
    while i < |fs|
      invariant 0 <= i <= |fs| && paramIndex == i + 1
      invariant |clauses| == |values| == i
      invariant forall j :: 0 <= j < i ==> clauses[j] == Assign(fs[j].column, j + 1)
      invariant forall j :: 0 <= j < i ==> values[j] == fs[j].value
    {
      clauses := clauses + [Assign(fs[i].column, paramIndex)];
      values := values + [fs[i].value];
      paramIndex := paramIndex + 1;
      i := i + 1;
    }
    clauses := clauses + [TouchUpdatedAt];
    values := values + [key];
    st := UpdateStatement(clauses, paramIndex, values);
    var spec := Statement(fs, key);
    assert st.clauses == spec.clauses;
    assert st.values == spec.values;
  }

  /** What the handler answers on success: the first returned row, if any. */
  datatype UpdatedBody = UpdatedBody(message: string, invoice: Option<QueryExecutor.Row>)

  const InvoiceNotFound: string := "Invoice not found"
  const WholesalerNotFound: string := "The given wholesaler was not found"
  const NothingToUpdate: string := "No valid fields provided for update"
  const InvoiceUpdated: string := "Invoice updated successfully"

  /** The answer of a lookup service: its value, or the database error
      that made its query reject. */
  datatype Lookup<T> = Answered(value: T) | LookupFailed(message: string)

  /** The wholesaler value the handler goes on with once its lookup has
      answered: the id found for the name, or `undefined` with no name. */
  function FoundWholesaler(req: UpdateRequest, findWholesaler: Value -> Lookup<Value>): Value
    requires req.wholesalerName.Some? ==> findWholesaler(req.wholesalerName.value).Answered?
  {
    if req.wholesalerName.Some? then findWholesaler(req.wholesalerName.value).value else Undefined
  }

  /** The invoice exists and, when a name is given, the wholesaler lookup
      answered with a truthy id. */
  predicate LookupsPassed(key: Value, req: UpdateRequest, invoiceExists: Value -> Lookup<bool>,
                          findWholesaler: Value -> Lookup<Value>) {
    && invoiceExists(key) == Answered(true)
    && (req.wholesalerName.Some? ==>
          findWholesaler(req.wholesalerName.value).Answered? && Truthy(findWholesaler(req.wholesalerName.value).value))
  }

  /** `updateInvoice`. `invoiceExists` is `checkInvoiceExists` on the parsed id,
      `findWholesaler` is `checkWholesalerExistsByName` (an id, or a falsy
      value), and `execute` runs the statement. A rejected lookup leaves the
      handler without a status set. */
  function UpdateInvoice(id: string, req: UpdateRequest, invoiceExists: Value -> Lookup<bool>,
                         findWholesaler: Value -> Lookup<Value>,
                         execute: UpdateStatement -> QueryExecutor.DbReply): (r: ErrorHandler.Reply<UpdatedBody>)
    // the invoice is checked first: nothing else matters for a missing one
    ensures var ex := invoiceExists(FromInt(JsNumbers.ParseInt(id, JsNumbers.Decimal)));
      && (ex.LookupFailed? ==> r == ErrorHandler.Forward(None, ex.message))
      && (ex == Answered(false) ==> r == ErrorHandler.Forward(Some(404), InvoiceNotFound))
    ensures invoiceExists(FromInt(JsNumbers.ParseInt(id, JsNumbers.Decimal))) == Answered(true) && req.wholesalerName.Some? ==>
      var found := findWholesaler(req.wholesalerName.value);
      && (found.LookupFailed? ==> r == ErrorHandler.Forward(None, found.message))
      && (found.Answered? ==> (!Truthy(found.value) <==> r == ErrorHandler.Forward(Some(404), WholesalerNotFound)))
    // past both lookups the update itself decides, with the key and the id found
    ensures var key := FromInt(JsNumbers.ParseInt(id, JsNumbers.Decimal));
      LookupsPassed(key, req, invoiceExists, findWholesaler) ==>
        r == ApplyUpdate(key, req, FoundWholesaler(req, findWholesaler), execute)
    ensures r.Respond? ==> LookupsPassed(FromInt(JsNumbers.ParseInt(id, JsNumbers.Decimal)), req, invoiceExists, findWholesaler)
  {
    var key := FromInt(JsNumbers.ParseInt(id, JsNumbers.Decimal));
    match invoiceExists(key)
    case LookupFailed(msg) => ErrorHandler.Forward(None, msg)
    case Answered(known) =>
      if !known then ErrorHandler.Forward(Some(404), InvoiceNotFound)
      else if req.wholesalerName.Some? && findWholesaler(req.wholesalerName.value).LookupFailed? then
        ErrorHandler.Forward(None, findWholesaler(req.wholesalerName.value).message)
      else
        var wholesaler := FoundWholesaler(req, findWholesaler);
        if req.wholesalerName.Some? && !Truthy(wholesaler) then ErrorHandler.Forward(Some(404), WholesalerNotFound)
        else ApplyUpdate(key, req, wholesaler, execute)
  }

  /** The rest of `updateInvoice` once both lookups have passed: no
      supplied field gives 400; otherwise the statement built from the
      supplied fields and the key is sent, its failure is forwarded without
      a status, and a success answers its first row. */
  function ApplyUpdate(key: Value, req: UpdateRequest, wholesaler: Value,
                       execute: UpdateStatement -> QueryExecutor.DbReply): (r: ErrorHandler.Reply<UpdatedBody>)
    ensures r == ErrorHandler.Forward(Some(400), NothingToUpdate) <==> Supplied(req, Undefined) == []
    ensures Supplied(req, Undefined) != [] ==>
      var st := Statement(Supplied(req, wholesaler), key);
      && (execute(st).DbError? ==> r == ErrorHandler.Forward(None, execute(st).message))
      && (execute(st).Rows? ==> r == ErrorHandler.Respond(200, UpdatedBody(InvoiceUpdated,
            if execute(st).rows == [] then None else Some(execute(st).rows[0]))))
  {
    var fs := Supplied(req, wholesaler);
    if fs == [] then ErrorHandler.Forward(Some(400), NothingToUpdate)
    else
      match execute(Statement(fs, key))
      case DbError(msg) => ErrorHandler.Forward(None, msg)
      case Rows(_, _, rows) => ErrorHandler.Respond(200, UpdatedBody(InvoiceUpdated, if rows == [] then None else Some(rows[0])))
  }

  /** The body property that sets column `c`, if present. */
  function Given(req: UpdateRequest, wholesaler: Value, c: Column): Option<Value> {
    match c
    case InvoiceNo => req.invoiceNo
    case InvoiceDate => req.invoiceDate
    case PaymentStatus => req.paymentStatus
    case PaidAmount => req.paidAmount
    case WholesalerId => if req.wholesalerName.Some? then Some(wholesaler) else None
  }

  /** A column is among the supplied fields exactly when its property is
      present, and then with the value the body gave (the wholesaler's with
      the id found for its name). */
  lemma SuppliedIffGiven(req: UpdateRequest, wholesaler: Value, c: Column, v: Value)
    ensures Field(c, v) in Supplied(req, wholesaler) <==> Given(req, wholesaler, c) == Some(v)
  {
    var a := Present(InvoiceNo, req.invoiceNo);
    var b := Present(InvoiceDate, req.invoiceDate);
    var d := Present(PaymentStatus, req.paymentStatus);
    var e := Present(PaidAmount, req.paidAmount);
    var w := if req.wholesalerName.Some? then [Field(WholesalerId, wholesaler)] else [];
    assert Supplied(req, wholesaler) == a + b + d + e + w;
  }

  /** For any field list: a column is assigned in the statement exactly
      when it is listed, at the listed field's position and with its value. */
  lemma {:induction false} AssignedIffListed(fs: seq<Field>, key: Value, c: Column)
    ensures var st := Statement(fs, key);
      && ((exists i :: 0 <= i < |fs| && fs[i].column == c) <==> exists i :: 0 <= i < |fs| && st.clauses[i] == Assign(c, i + 1))
      && (forall i :: 0 <= i < |fs| && st.clauses[i].Assign? && st.clauses[i].column == c ==>
            fs[i].column == c && st.values[st.clauses[i].param - 1] == fs[i].value)
  {
    var st := Statement(fs, key);
    if exists i :: 0 <= i < |fs| && fs[i].column == c {
      var i :| 0 <= i < |fs| && fs[i].column == c;
      assert st.clauses[i] == Assign(c, i + 1);
    }
  }

  /** The supplied list names a column exactly when its property is given,
      and with the given value. */
  lemma ListedIffGiven(req: UpdateRequest, wholesaler: Value, c: Column)
    ensures var fs := Supplied(req, wholesaler);
      && (Given(req, wholesaler, c).Some? <==> exists i :: 0 <= i < |fs| && fs[i].column == c)
      && (forall i :: 0 <= i < |fs| && fs[i].column == c ==> Given(req, wholesaler, c) == Some(fs[i].value))
  {
    var fs := Supplied(req, wholesaler);
    if Given(req, wholesaler, c).Some? {
      SuppliedIffGiven(req, wholesaler, c, Given(req, wholesaler, c).value);
      var i :| 0 <= i < |fs| && fs[i] == Field(c, Given(req, wholesaler, c).value);
    }
    forall i | 0 <= i < |fs| && fs[i].column == c
      ensures Given(req, wholesaler, c) == Some(fs[i].value)
    {
      assert fs[i] == Field(c, fs[i].value) && fs[i] in fs;
      SuppliedIffGiven(req, wholesaler, c, fs[i].value);
    }
  }

  /** In the statement, a column is assigned exactly when its property is
      present, and its placeholder carries the body's value. */
  lemma SetIffSupplied(req: UpdateRequest, wholesaler: Value, key: Value, c: Column)
    ensures var fs := Supplied(req, wholesaler);
      var st := Statement(fs, key);
      && (Given(req, wholesaler, c).Some? <==> exists i :: 0 <= i < |fs| && st.clauses[i] == Assign(c, i + 1))
      && (forall i :: 0 <= i < |fs| && st.clauses[i].Assign? && st.clauses[i].column == c ==>
            Some(st.values[st.clauses[i].param - 1]) == Given(req, wholesaler, c))
  {
    ListedIffGiven(req, wholesaler, c);
    AssignedIffListed(Supplied(req, wholesaler), key, c);
  }
}

=== FILE: js_numbers.dfy ===
/** `parseInt` of JavaScript (section "parseInt (string, radix)" of
    ECMA-262) for the two call shapes the handlers use, `parseInt(s)` and
    `parseInt(s, 10)`, and the decimal rendering of an integer that a
    template literal produces. NaN is `None`. */
module JsNumbers {
  import opened JsValues
  import JsStrings

  /** `parseInt(s)` detects a "0x" prefix; `parseInt(s, 10)` does not. */
  datatype Radix = AutoRadix | Decimal

  predicate IsDecDigit(c: char) {
    '0' <= c <= '9'
  }

  predicate IsHexDigit(c: char) {
    IsDecDigit(c) || 'a' <= c <= 'f' || 'A' <= c <= 'F'
  }

  predicate IsDigit(c: char, hex: bool) {
    if hex then IsHexDigit(c) else IsDecDigit(c)
  }

  function DigitValue(c: char): (d: nat)
    requires IsHexDigit(c)
    ensures d < 16
    ensures IsDecDigit(c) ==> d < 10
  {
    if IsDecDigit(c) then (c as int - '0' as int)
    else if 'a' <= c <= 'f' then (c as int - 'a' as int) + 10
    else (c as int - 'A' as int) + 10
  }

  /** Length of the longest prefix made of digits. */
  function DigitRun(s: string, hex: bool): (n: nat)
    ensures n <= |s|
    ensures forall i :: 0 <= i < n ==> IsDigit(s[i], hex)
    ensures n < |s| ==> !IsDigit(s[n], hex)
  {
    if |s| > 0 && IsDigit(s[0], hex) then 1 + DigitRun(s[1..], hex) else 0
  }

  /** Positional value of a digit string, most significant digit first. */
  function DigitsValue(ds: string, base: nat): nat
    requires forall i :: 0 <= i < |ds| ==> IsHexDigit(ds[i])
  {
    if ds == [] then 0
    else DigitsValue(ds[..|ds| - 1], base) * base + DigitValue(ds[|ds| - 1])
  }

  /** `parseInt`: skip leading whitespace, take an optional sign, with the
      automatic radix strip a "0x"/"0X" prefix and read hexadecimal, then
      read the longest run of digits; no digit at all gives NaN. */
  function ParseInt(s: string, radix: Radix): (r: Option<int>)
    ensures r.None? <==> DigitRun(Unprefixed(s, radix), HexMode(s, radix)) == 0
  {
    var v := Unprefixed(s, radix);
    var hex := HexMode(s, radix);
    var n := DigitRun(v, hex);
    if n == 0 then None
    else
      var m: int := DigitsValue(v[..n], if hex then 16 else 10);
      Some(if Negative(s) then -m else m)
  }

  /** The text after whitespace and sign. */
  function Unsigned(s: string): string {
    var t := JsStrings.TrimStart(s);
    if |t| > 0 && (t[0] == '-' || t[0] == '+') then t[1..] else t
  }

  function Negative(s: string): bool {
    var t := JsStrings.TrimStart(s);
    |t| > 0 && t[0] == '-'
  }

  function HexMode(s: string, radix: Radix): bool {
    var u := Unsigned(s);
    radix == AutoRadix && |u| >= 2 && u[0] == '0' && (u[1] == 'x' || u[1] == 'X')
  }

  /** The text whose leading digits are read. */
  function Unprefixed(s: string, radix: Radix): string {
    var u := Unsigned(s);
    if HexMode(s, radix) then u[2..] else u
  }

  /** `parseInt(x)` where `x` may be undefined: undefined is first turned
      into the string "undefined", which has no digits. */
  function ParseIntParam(x: Option<string>, radix: Radix): Option<int> {
    ParseInt(TemplateText(x), radix)
  }

  function DecChar(d: nat): (c: char)
    requires d < 10
    ensures IsDecDigit(c) && DigitValue(c) == d
  {
    ('0' as int + d) as char
  }

  /** Decimal digits of a natural number, as `${n}` renders it. */
  function ShowNat(n: nat): (s: string)
    ensures |s| > 0
    ensures forall i :: 0 <= i < |s| ==> IsDecDigit(s[i])
  {
    if n < 10 then [DecChar(n)] else ShowNat(n / 10) + [DecChar(n % 10)]
  }

  /** Decimal rendering of an integer, with a leading '-' when negative. */
  function ShowInt(n: int): string {
    if n < 0 then "-" + ShowNat(-n) else ShowNat(n)
  }

  lemma {:induction false} ShowNatValue(n: nat)
    ensures DigitsValue(ShowNat(n), 10) == n
  {
    var s := ShowNat(n);
    if n >= 10 {
      ShowNatValue(n / 10);
      assert s[..|s| - 1] == ShowNat(n / 10);
      assert s[|s| - 1] == DecChar(n % 10);
    }
  }

  /** Only 0 renders as "0". */
  lemma ShowNatZero(n: nat)
    ensures ShowNat(n) == "0" <==> n == 0
  {
    if n >= 10 {
      assert |ShowNat(n)| >= 2;
    } else {
      assert ShowNat(n)[0] == DecChar(n);
    }
  }

  /** A digit string followed by a non-digit: the run stops exactly there. */
  lemma {:induction false} DigitRunAppend(ds: string, rest: string, hex: bool)
    requires forall i :: 0 <= i < |ds| ==> IsDigit(ds[i], hex)
    requires rest == [] || !IsDigit(rest[0], hex)
    ensures DigitRun(ds + rest, hex) == |ds|
    decreases |ds|
  {
    if |ds| == 0 {
      assert ds + rest == rest;
    } else {
      assert (ds + rest)[1..] == ds[1..] + rest;
      DigitRunAppend(ds[1..], rest, hex);
    }
  }

  /** `rest` ends a run of decimal digits `digits`: it does not continue
      the run, and when the run is a lone "0" read with the automatic radix
      it does not turn it into a "0x" prefix. */
  predicate EndsDecimalRun(digits: string, rest: string, radix: Radix) {
    rest == [] ||
    (!IsDecDigit(rest[0]) && !(radix == AutoRadix && digits == "0" && (rest[0] == 'x' || rest[0] == 'X')))
  }

  /** A decimal run that `rest` ends never looks like a "0x" prefix. */
  lemma NoHexPrefix(s: string, digits: string, rest: string, radix: Radix)
    requires Unsigned(s) == digits + rest
    requires |digits| > 0 && forall i :: 0 <= i < |digits| ==> IsDecDigit(digits[i])
    requires EndsDecimalRun(digits, rest, radix)
    ensures !HexMode(s, radix)
  {
    var u := digits + rest;
    if |u| >= 2 {
      if |digits| >= 2 {
        assert u[1] == digits[1];
      } else {
        assert u[1] == rest[0];
      }
    }
  }

  /** Once whitespace and sign are gone, a run of decimal digits followed
      by text that neither continues it nor makes a "0x" prefix is read as
      that run's value, with the sign applied. */
  lemma {:induction false} ReadsDecimalRun(s: string, digits: string, rest: string, radix: Radix)
    requires Unsigned(s) == digits + rest
    requires |digits| > 0 && forall i :: 0 <= i < |digits| ==> IsDecDigit(digits[i])
    requires EndsDecimalRun(digits, rest, radix)
    ensures var v: int := DigitsValue(digits, 10); ParseInt(s, radix) == Some(if Negative(s) then -v else v)
  {
    var u := digits + rest;
    NoHexPrefix(s, digits, rest, radix);
    DigitRunAppend(digits, rest, false);
    ReadsRun(s, radix, u, |digits|);
    assert u[..|digits|] == digits;
  }

  /** `parseInt` gives the value of the leading digit run, in the base the
      prefix selects, with the sign applied. */
  lemma ReadsRun(s: string, radix: Radix, u: string, k: nat)
    requires Unprefixed(s, radix) == u
    requires 0 < k == DigitRun(u, HexMode(s, radix))
    ensures var v: int := DigitsValue(u[..k], if HexMode(s, radix) then 16 else 10);
      ParseInt(s, radix) == Some(if Negative(s) then -v else v)
  {
  }

  /** `parseInt` reads back the decimal rendering of any integer, also when
      other text follows that does not start with a decimal digit (nor, after
      a rendered 0 read with the automatic radix, with the 'x' that would
      make it a hexadecimal prefix). */
  lemma {:induction false} ParseIntShowInt(n: int, rest: string, radix: Radix)
    requires EndsDecimalRun(ShowInt(n), rest, radix)
    ensures ParseInt(ShowInt(n) + rest, radix) == Some(n)
  {
    var m: nat := if n < 0 then -n else n;
    var digits := ShowNat(m);
    SignSplit(n, rest);
    ShowNatValue(m);
    assert EndsDecimalRun(digits, rest, radix) by {
      ShowNatZero(m);
    }
    ReadsDecimalRun(ShowInt(n) + rest, digits, rest, radix);
  }

  /** The rendering of n starts with no blank, carries its sign, and then
      the digits of its magnitude. */
  lemma SignSplit(n: int, rest: string)
    ensures var s := ShowInt(n) + rest;
      && Unsigned(s) == ShowNat(if n < 0 then -n else n) + rest
      && (Negative(s) <==> n < 0)
  {
    var s := ShowInt(n) + rest;
    var digits := ShowNat(if n < 0 then -n else n);
    assert JsStrings.TrimStart(s) == s by {
      assert !JsStrings.IsSpace(s[0]);
    }
    if n < 0 {
      assert s == "-" + (digits + rest);
      assert s[1..] == digits + rest;
    } else {
      assert s == digits + rest;
    }
  }

  /** Text whose first non-blank character is neither a digit nor a sign
      parses to NaN. */
  lemma ParseIntNoDigits(s: string, radix: Radix)
    requires var t := JsStrings.TrimStart(s); |t| > 0 && !IsDecDigit(t[0]) && t[0] != '-' && t[0] != '+'
    ensures ParseInt(s, radix) == None
  {
  }

  /** In particular `parseInt(undefined)` is NaN. */
  lemma ParseIntUndefined(radix: Radix)
    ensures ParseIntParam(None, radix) == None
  {
    var u := TemplateText(None);
    assert u == "undefined";
    assert JsStrings.TrimStart(u) == u by {
      assert !JsStrings.IsSpace(u[0]);
    }
    ParseIntNoDigits(u, radix);
  }
}

=== FILE: js_strings.dfy ===
/** String operations of JavaScript used by the handlers: whitespace as
    `String.prototype.trim` sees it, `trim`, removal of every occurrence of a
    literal pattern (`s.replace(/pat/g, "")`), and `slice(0, n)`. Strings are
    sequences of Unicode scalar values, not UTF-16 code units. */
module JsStrings {

  /** WhiteSpace and LineTerminator code points of ECMAScript: TAB, VT, FF,
      SPACE, NBSP, ZWNBSP, the other Unicode "Zs" characters, LF, CR, LS, PS. */
  predicate IsSpace(c: char) {
    || c == '\U{0009}' || c == '\U{000B}' || c == '\U{000C}' || c == ' '
    || c == '\U{00A0}' || c == '\U{FEFF}'
    || c == '\U{1680}' || ('\U{2000}' <= c <= '\U{200A}') || c == '\U{202F}'
    || c == '\U{205F}' || c == '\U{3000}'
    || c == '\U{000A}' || c == '\U{000D}' || c == '\U{2028}' || c == '\U{2029}'
  }

  predicate AllSpace(s: string) {
    forall i :: 0 <= i < |s| ==> IsSpace(s[i])
  }

  predicate HasNonSpace(s: string) {
    exists i :: 0 <= i < |s| && !IsSpace(s[i])
  }

  /** Drops leading whitespace. */
  function TrimStart(s: string): (r: string)
    ensures |r| <= |s| && r == s[|s| - |r|..]
    ensures r == [] || !IsSpace(r[0])
    ensures AllSpace(s[..|s| - |r|])
  {
    if |s| > 0 && IsSpace(s[0]) then
      var r := TrimStart(s[1..]);
      assert s[1..][|s| - 1 - |r|..] == s[|s| - |r|..];
      assert forall i :: 1 <= i < |s| - |r| ==> s[i] == s[1..][..|s| - 1 - |r|][i - 1];
      r
    else s
  }

  /** Drops trailing whitespace. */
  function TrimEnd(s: string): (r: string)
    ensures |r| <= |s| && r == s[..|r|]
    ensures r == [] || !IsSpace(r[|r| - 1])
    ensures AllSpace(s[|r|..])
  {
    if |s| > 0 && IsSpace(s[|s| - 1]) then
      var r := TrimEnd(s[..|s| - 1]);
      assert s[..|s| - 1][..|r|] == s[..|r|];
      assert forall i :: |r| <= i < |s| - 1 ==> s[i] == s[..|s| - 1][|r|..][i - |r|];
      r
    else s
  }

  /** `String.prototype.trim`. */
  function Trim(s: string): (r: string)
    ensures r == [] || (!IsSpace(r[0]) && !IsSpace(r[|r| - 1]))
  {
    TrimEnd(TrimStart(s))
  }

  /** `s.replace(/pat/g, "")` for a literal pattern: scanning left to right,
      every non-overlapping occurrence of `pat` is deleted. */
  function RemoveAll(s: string, pat: string): (r: string)
    requires |pat| > 0
    ensures |r| <= |s|
    decreases |s|
  {
    if |s| < |pat| then s
    else if s[..|pat|] == pat then RemoveAll(s[|pat|..], pat)
    else [s[0]] + RemoveAll(s[1..], pat)
  }

  /** `s.slice(0, n)` for n >= 0. */
  function SliceFront(s: string, n: nat): (r: string)
    ensures |r| == if |s| < n then |s| else n
    ensures r == s[..|r|]
  {
    if |s| <= n then s else s[..n]
  }

  predicate NoChar(s: string, c: char) {
    forall i :: 0 <= i < |s| ==> s[i] != c
  }

  /** A pattern that starts with `c` never occurs in a string free of `c`,
      so removing it changes nothing. */
  lemma {:induction false} RemoveAllAbsent(s: string, pat: string)
    requires |pat| > 0 && NoChar(s, pat[0])
    ensures RemoveAll(s, pat) == s
    decreases |s|
  {
    if |s| < |pat| {
    } else {
      assert s[..|pat|][0] == s[0] != pat[0];
      RemoveAllAbsent(s[1..], pat);
      assert s == [s[0]] + s[1..];
    }
  }

  /** Removing occurrences from a string that starts with the pattern is the
      same as removing them from the rest. */
  lemma RemoveAllLeading(pat: string, s: string)
    requires |pat| > 0
    ensures RemoveAll(pat + s, pat) == RemoveAll(s, pat)
  {
    assert (pat + s)[..|pat|] == pat;
    assert (pat + s)[|pat|..] == s;
  }

  /** Appending a tail that is itself shorter than the pattern and cannot be
      reached by a match starting in `s` (because `s` has no `pat[0]`). */
  lemma {:induction false} RemoveAllTail(s: string, tail: string, pat: string)
    requires |pat| > 0 && NoChar(s, pat[0]) && |tail| < |pat|
    ensures RemoveAll(s + tail, pat) == s + tail
    decreases |s|
  {
    if |s| == 0 {
      assert s + tail == tail;
    } else {
      var st := s + tail;
      if |st| >= |pat| {
        assert st[..|pat|][0] == s[0];
      }
      RemoveAllTail(s[1..], tail, pat);
      assert st[1..] == s[1..] + tail;
      assert st == [st[0]] + st[1..];
    }
  }

  /** A pattern-free string followed by one copy of the pattern loses just
      that copy. */
  lemma {:induction false} RemoveAllTrailing(s: string, pat: string)
    requires |pat| > 0 && NoChar(s, pat[0])
    ensures RemoveAll(s + pat, pat) == s
    decreases |s|
  {
    if |s| == 0 {
      assert s + pat == pat + [];
      RemoveAllLeading(pat, []);
    } else {
      var sp := s + pat;
      assert sp[..|pat|][0] == s[0];
      RemoveAllTrailing(s[1..], pat);
      assert sp[1..] == s[1..] + pat;
      assert sp == [sp[0]] + sp[1..];
    }
  }

  /** Leading whitespace does not change TrimStart. */
  lemma {:induction false} TrimStartSpacePrefix(w: string, x: string)
    requires AllSpace(w)
    ensures TrimStart(w + x) == TrimStart(x)
    decreases |w|
  {
    if |w| > 0 {
      assert (w + x)[1..] == w[1..] + x;
      TrimStartSpacePrefix(w[1..], x);
    } else {
      assert w + x == x;
    }
  }

  /** Trailing whitespace does not change TrimEnd. */
  lemma {:induction false} TrimEndSpaceSuffix(x: string, w: string)
    requires AllSpace(w)
    ensures TrimEnd(x + w) == TrimEnd(x)
    decreases |w|
  {
    if |w| > 0 {
      assert (x + w)[..|x + w| - 1] == x + w[..|w| - 1];
      TrimEndSpaceSuffix(x, w[..|w| - 1]);
    } else {
      assert x + w == x;
    }
  }

  /** TrimStart of `x + w` when `x` is all whitespace. */
  lemma {:induction false} TrimStartAllSpace(x: string, w: string)
    requires AllSpace(x)
    ensures TrimStart(x + w) == TrimStart(w)
  {
    TrimStartSpacePrefix(x, w);
  }

  /** TrimStart only looks at the front: once a non-space character is
      reached, whatever follows is kept. */
  lemma {:induction false} TrimStartAppend(x: string, w: string)
    requires HasNonSpace(x)
    ensures TrimStart(x + w) == TrimStart(x) + w
    decreases |x|
  {
    if IsSpace(x[0]) {
      var i :| 0 <= i < |x| && !IsSpace(x[i]);
      assert i > 0 && !IsSpace(x[1..][i - 1]);
      assert (x + w)[1..] == x[1..] + w;
      TrimStartAppend(x[1..], w);
    } else {
      assert (x + w)[0] == x[0];
    }
  }

  /** `trim` ignores whitespace added on both sides. */
  lemma TrimPadded(w1: string, x: string, w2: string)
    requires AllSpace(w1) && AllSpace(w2)
    ensures Trim(w1 + x + w2) == Trim(x)
  {
    assert w1 + x + w2 == w1 + (x + w2);
    TrimStartSpacePrefix(w1, x + w2);
    if HasNonSpace(x) {
      TrimStartAppend(x, w2);
      TrimEndSpaceSuffix(TrimStart(x), w2);
    } else {
      assert AllSpace(x);
      TrimStartAllSpace(x, w2);
      TrimStartAllSpace(x, []);
      assert x + [] == x;
      TrimStartAllSpace(w2, []);
      assert w2 + [] == w2;
    }
  }
}

=== FILE: js_values.dfy ===
/** The small slice of JavaScript's value semantics that the handlers rely on:
    which values are "truthy", the `a || b` default idiom, and how a possibly
    undefined string renders inside a template literal. */
module JsValues {

  /** The conventional Some/None datatype, used for "may be undefined". */
  datatype Option<+T> = None | Some(value: T) {

    /** Returns the value in Some or the given default. */
    function GetOr(default: T): T {
      match this
      case Some(v) => v
      case None => default
    }
  }

  /** A JavaScript value as far as the handlers inspect it. Numbers are
      modelled as reals (no floating-point rounding); `Object` stands for any
      object or array whose contents are not modelled: it is truthy and has
      no string methods. */
  datatype Value =
    | Undefined
    | Null
    | Bool(b: bool)
    | Num(n: real)
    | NaN
    | Str(s: string)
    | Object

  /** JavaScript's ToBoolean: the falsy values are undefined, null, false,
      0, NaN and the empty string; everything else is truthy. */
  predicate Truthy(v: Value) {
    match v
    case Undefined => false
    case Null => false
    case NaN => false
    case Bool(b) => b
    case Num(n) => n != 0.0
    case Str(s) => s != ""
    case Object => true
  }

  /** `a || b`: the first operand when it is truthy, else the second. */
  function Or(a: Value, b: Value): (r: Value)
    ensures Truthy(a) ==> r == a
    ensures !Truthy(a) ==> r == b
  {
    if Truthy(a) then a else b
  }

  /** A string that may be undefined, as `${x}` renders it. */
  function TemplateText(x: Option<string>): (r: string)
    ensures x.Some? ==> r == x.value
    ensures x.None? ==> r == "undefined"
  {
    match x
    case Some(s) => s
    case None => "undefined"
  }

  /** `x || fallback` for a string that may be undefined. */
  function OrText(x: Option<string>, fallback: string): (r: string)
    ensures x.Some? && x.value != "" ==> r == x.value
    ensures x.None? || x.value == "" ==> r == fallback
  {
    if x.Some? && x.value != "" then x.value else fallback
  }

  /** A string value, and a number or NaN from a parse result. */
  function FromInt(n: Option<int>): (v: Value)
    ensures n.Some? <==> v.Num?
    ensures n.Some? ==> v == Num(n.value as real)
    ensures n.None? ==> v == NaN
  {
    match n
    case Some(k) => Num(k as real)
    case None => NaN
  }
}

=== FILE: model_gateway.dfy ===
/** `generateContentWithRetry` (controller/aiController.js): calls the
    language model up to three times, waiting 1000 ms after the first
    failure and 2000 ms after the second, and rethrows the third failure.
    The model is an oracle indexed by the attempt; waits are recorded, not
    slept. */
module ModelGateway {

  /** The answer of one `generateContent` call, including reading its text. */
  datatype GenReply = Text(text: string) | GenFailed(error: string)

  /** What attempt number `i` (from 0) of the same request answers. */
  type Generator = nat -> GenReply

  const MaxRetries: nat := 3
  const InitialDelay: nat := 1000

  /** The returned (or rethrown) reply, how many calls were made, and the
      waits between them in milliseconds. */
  datatype RetryOutcome = RetryOutcome(result: GenReply, calls: nat, delays: seq<nat>)

  function Pow2(k: nat): (r: nat)
    ensures r >= 1
  {
    if k == 0 then 1 else 2 * Pow2(k - 1)
  }

  /** Attempts `i` .. `MaxRetries - 1`, the next wait being `delay`. */
  function Attempts(gen: Generator, i: nat, delay: nat): (o: RetryOutcome)
    requires i < MaxRetries
    ensures o.calls >= 1 && i + o.calls <= MaxRetries
    // every attempt before the last one made failed, and the last one's answer is returned
    ensures forall j :: i <= j < i + o.calls - 1 ==> gen(j).GenFailed?
    ensures o.result == gen(i + o.calls - 1)
    // an error escapes only from the final attempt
    ensures o.result.GenFailed? ==> i + o.calls == MaxRetries
    // one wait between consecutive attempts, doubling each time
    ensures |o.delays| == o.calls - 1
    ensures forall k :: 0 <= k < |o.delays| ==> o.delays[k] == delay * Pow2(k)
    decreases MaxRetries - i
  {
    match gen(i)
    case Text(t) => RetryOutcome(Text(t), 1, [])
    case GenFailed(e) =>
      if i == MaxRetries - 1 then RetryOutcome(GenFailed(e), 1, [])
      else
        var rest := Attempts(gen, i + 1, delay * 2);
        assert forall k :: 0 <= k < |rest.delays| ==> rest.delays[k] == delay * Pow2(k + 1);
        RetryOutcome(rest.result, rest.calls + 1, [delay] + rest.delays)
  }

  /** `generateContentWithRetry(model, payload)`. */
  function GenerateWithRetry(gen: Generator): (o: RetryOutcome)
    ensures 1 <= o.calls <= MaxRetries
    ensures o.delays == [1000, 2000][..o.calls - 1]
  {
    var o := Attempts(gen, 0, InitialDelay);
    assert o.delays == [1000, 2000][..o.calls - 1] by {
      assert Pow2(1) == 2;
    }
    o
  }

  /** Index of the first successful attempt among the first `n`, if any. */
  function FirstSuccess(gen: Generator, n: nat): (r: Hit)
    ensures r.HitAt? ==> r.index < n && gen(r.index).Text?
    ensures r.HitAt? ==> forall j :: 0 <= j < r.index ==> gen(j).GenFailed?
    ensures r.NoHit? ==> forall j :: 0 <= j < n ==> gen(j).GenFailed?
  {
    if n == 0 then NoHit
    else
      var r := FirstSuccess(gen, n - 1);
      if r.HitAt? then r else if gen(n - 1).Text? then HitAt(n - 1) else NoHit
  }

  /** The index of a successful attempt, or none. */
  datatype Hit = NoHit | HitAt(index: nat)

  /** The retry loop returns the first success within three attempts, after
      exactly as many calls; when all three fail it rethrows the third
      error after three calls and two waits. */
  lemma RetryIsFirstSuccess(gen: Generator)
    ensures var o := GenerateWithRetry(gen);
      match FirstSuccess(gen, MaxRetries)
      case HitAt(j) => o.result == gen(j) && o.calls == j + 1 && o.delays == [1000, 2000][..j]
      case NoHit => o.result == gen(2) && o.result.GenFailed? && o.calls == 3 && o.delays == [1000, 2000]
  {
    var o := GenerateWithRetry(gen);
    var f := FirstSuccess(gen, MaxRetries);
    // the answering attempt can be neither before nor after the first success
    assert f.HitAt? ==> o.calls - 1 == f.index;
  }

  /** Concretely: two failures then a success give the success after two
      waits of 1000 and 2000. */
  lemma FailTwiceThenSucceed(gen: Generator, t: string)
    requires gen(0).GenFailed? && gen(1).GenFailed? && gen(2) == Text(t)
    ensures GenerateWithRetry(gen) == RetryOutcome(Text(t), 3, [1000, 2000])
  {
    RetryIsFirstSuccess(gen);
  }
}

=== FILE: query_executor.dfy ===
/** `executeQueries` (controller/aiController.js): runs the statements the
    language model proposed, one after another, on the shared pool, and
    records for each either its result or a zero-row error placeholder. A
    statement the database refuses does not stop the batch; a `null` in the
    list does, because reading its label in the error path throws too. */
module QueryExecutor {
  import opened JsValues

  /** One entry of the statement list. The model is asked for objects
      `{sql, label}`; a bare string (or number) can also end up in the list,
      and on such a value both `.sql` and `.label` read as undefined. A
      `null` element makes `.sql` throw, and then `.label` in the `catch`. */
  datatype Item =
    | QueryObject(sql: Option<string>, caption: Option<string>)
    | Scalar(text: string)
    | NullItem

  /** The argument as `executeQueries` sees it: missing, a value that is not
      an array (truthy or not), or an array. */
  datatype ListArg = Absent | NotArray(truthy: bool) | Array(items: seq<Item>)

  /** A result row; its columns are not inspected. */
  type Row = map<string, Value>

  /** What the database answers to one statement. `fields` is absent for
      statements that return no row description. */
  datatype DbReply =
    | Rows(rowCount: nat, fields: Option<seq<string>>, rows: seq<Row>)
    | DbError(message: string)

  /** One entry of the result list. */
  datatype Dataset = Dataset(rows: nat, columns: nat, data: seq<Row>, caption: string)

  const DefaultLabel: string := "Query Result"
  const ErrorPrefix: string := "Error: "

  function SqlOf(q: Item): Option<string> {
    match q
    case QueryObject(sql, _) => sql
    case _ => None
  }

  function LabelOf(q: Item): Option<string> {
    match q
    case QueryObject(_, caption) => caption
    case _ => None
  }

  /** No element of the list is `null`. */
  predicate NoNull(items: seq<Item>) {
    forall i :: 0 <= i < |items| ==> !items[i].NullItem?
  }

  /** Position of the first `null` element, or the length when there is none. */
  function FirstNull(items: seq<Item>): (k: nat)
    ensures k <= |items| && NoNull(items[..k])
    ensures k < |items| ==> items[k].NullItem?
    decreases |items|
  {
    if items == [] || items[0].NullItem? then 0
    else
      var k := 1 + FirstNull(items[1..]);
      assert forall i :: 1 <= i < k ==> items[..k][i] == items[1..][..k - 1][i - 1];
      k
  }

  /** Text of the `TypeError` that leaves the loop at a `null` element. */
  const NullLabelError: string := "Cannot read properties of null (reading 'label')"

  /** The entry recorded for one statement and the database's answer. */
  function Entry(q: Item, reply: DbReply): (d: Dataset)
    ensures reply.Rows? ==> d.rows == reply.rowCount && d.data == reply.rows
    ensures reply.Rows? && reply.fields.Some? ==> d.columns == |reply.fields.value|
    ensures reply.Rows? && reply.fields.None? ==> d.columns == 0
    ensures reply.Rows? ==> d.caption == OrText(LabelOf(q), DefaultLabel)
    ensures reply.DbError? ==> d == Dataset(0, 0, [], ErrorPrefix + TemplateText(LabelOf(q)))
  {
    match reply
    case Rows(rowCount, fields, rows) =>
      Dataset(rowCount, if fields.Some? then |fields.value| else 0, rows, OrText(LabelOf(q), DefaultLabel))
    case DbError(_) =>
      Dataset(0, 0, [], ErrorPrefix + TemplateText(LabelOf(q)))
  }

  /** The store as seen by the pool: answering a statement may change it. */
  type Runner<!P> = (P, Option<string>) -> (DbReply, P)

  /** Everything one batch did: the entries, the database's answers, and the
      store before each statement and after the last. */
  datatype Batch<P> = Batch(datasets: seq<Dataset>, replies: seq<DbReply>, states: seq<P>)

  /** One turn of the loop: statement `q` sent against `before` got `reply`
      and left `after`, and `d` records it. */
  ghost predicate StepOf<P>(run: Runner<P>, q: Item, before: P, reply: DbReply, after: P, d: Dataset) {
    run(before, SqlOf(q)) == (reply, after) && d == Entry(q, reply)
  }

  ghost predicate BatchOf<P>(items: seq<Item>, p: P, run: Runner<P>, b: Batch<P>) {
    && |b.datasets| == |items| && |b.replies| == |items| && |b.states| == |items| + 1
    && b.states[0] == p
    && forall i :: 0 <= i < |items| ==>
         StepOf(run, items[i], b.states[i], b.replies[i], b.states[i + 1], b.datasets[i])
  }

  /** The loop of `executeQueries`: every statement is sent, in order, each
      against the store the previous one left, whatever the previous ones
      answered. */
  function RunAll<P>(items: seq<Item>, p: P, run: Runner<P>): (b: Batch<P>)
    requires NoNull(items)
    ensures |b.datasets| == |items| && |b.replies| == |items| && |b.states| == |items| + 1
    ensures b.states[0] == p
    decreases |items|
  {
    if items == [] then Batch([], [], [p])
    else
      var (reply, p1) := run(p, SqlOf(items[0]));
      var rest := RunAll(items[1..], p1, run);
      Batch([Entry(items[0], reply)] + rest.datasets, [reply] + rest.replies, [p] + rest.states)
  }

  /** The loop's batch satisfies the step-by-step description. */
  lemma {:induction false} RunAllIsBatch<P>(items: seq<Item>, p: P, run: Runner<P>)
    requires NoNull(items)
    ensures BatchOf(items, p, run, RunAll(items, p, run))
    decreases |items|
  {
    if items != [] {
      var (reply, p1) := run(p, SqlOf(items[0]));
      RunAllIsBatch(items[1..], p1, run);
      var b := RunAll(items, p, run);
      var rest := RunAll(items[1..], p1, run);
      forall i | 0 <= i < |items|
        ensures StepOf(run, items[i], b.states[i], b.replies[i], b.states[i + 1], b.datasets[i])
      {
        if i > 0 {
          assert StepOf(run, items[1..][i - 1], rest.states[i - 1], rest.replies[i - 1], rest.states[i], rest.datasets[i - 1]);
          assert items[i] == items[1..][i - 1];
        }
      }
    }
  }

  /** Result of one call: the list (or null) and the store afterwards, or
      the error the call rejects with and the store it left. */
  datatype Executed<P> =
    | Executed(results: Option<seq<Dataset>>, store: P)
    | Aborted(message: string, store: P)

  /** `executeQueries(queryList)`. */
  function ExecuteQueries<P>(arg: ListArg, p: P, run: Runner<P>): (e: Executed<P>)
    // null, and nothing sent, for a missing, non-array or empty list
    ensures !(arg.Array? && |arg.items| > 0) ==> e == Executed(None, p)
    ensures arg.Array? && |arg.items| > 0 ==> !(e.Executed? && e.results.None?)
    // a `null` element rejects the whole call
    ensures e.Aborted? <==> arg.Array? && !NoNull(arg.items)
    ensures e.Aborted? ==> e.message == NullLabelError
    // the statements before the first `null` run in order, one entry each
    ensures arg.Array? ==>
      var k := FirstNull(arg.items);
      var b := RunAll(arg.items[..k], p, run);
      && (|arg.items| > 0 ==> e.store == b.states[k])
      && (e.Executed? && e.results.Some? ==> k == |arg.items| && e.results.value == b.datasets)
    ensures e.Executed? && e.results.Some? ==> |e.results.value| == |arg.items|
  {
    if !(arg.Array? && |arg.items| > 0) then Executed(None, p)
    else
      var k := FirstNull(arg.items);
      var b := RunAll(arg.items[..k], p, run);
      if k < |arg.items| then Aborted(NullLabelError, b.states[k])
      else
        assert arg.items[..k] == arg.items;
        Executed(Some(b.datasets), b.states[k])
  }

  /** The first `null` is found wherever it sits, whatever follows it. */
  lemma {:induction false} FirstNullAt(items: seq<Item>, k: nat)
    requires k < |items| && items[k].NullItem? && NoNull(items[..k])
    ensures FirstNull(items) == k
    decreases k
  {
    if k > 0 {
      assert !items[..k][0].NullItem?;
      assert items[1..][..k - 1] == items[..k][1..];
      FirstNullAt(items[1..], k - 1);
    }
  }

  /** A `null` element stops the batch: the call rejects, the statements
      before it have run on the pool, and nothing after it is sent, so the
      outcome is the same whatever follows the `null`. */
  lemma NullAbortsBatch<P>(items: seq<Item>, k: nat, rest: seq<Item>, p: P, run: Runner<P>)
    requires k < |items| && items[k].NullItem? && NoNull(items[..k])
    ensures ExecuteQueries(Array(items), p, run) == Aborted(NullLabelError, RunAll(items[..k], p, run).states[k])
    ensures ExecuteQueries(Array(items), p, run) == ExecuteQueries(Array(items[..k + 1] + rest), p, run)
  {
    var other := items[..k + 1] + rest;
    FirstNullAt(items, k);
    assert other[..k] == items[..k] && other[k] == items[k];
    FirstNullAt(other, k);
  }

  /** The batch is determined by the statements and the store: there is
      exactly one way the loop can have gone. */
  lemma {:induction false} BatchUnique<P>(items: seq<Item>, p: P, run: Runner<P>, b: Batch<P>)
    requires NoNull(items) && BatchOf(items, p, run, b)
    ensures b == RunAll(items, p, run)
    decreases |items|
  {
    if items != [] {
      var tail := Batch(b.datasets[1..], b.replies[1..], b.states[1..]);
      assert BatchOf(items[1..], b.states[1], run, tail) by {
        forall i | 0 <= i < |items| - 1
          ensures StepOf(run, items[1..][i], tail.states[i], tail.replies[i], tail.states[i + 1], tail.datasets[i])
        {
          assert StepOf(run, items[i + 1], b.states[i + 1], b.replies[i + 1], b.states[i + 2], b.datasets[i + 1]);
          assert items[1..][i] == items[i + 1];
        }
      }
      BatchUnique(items[1..], b.states[1], run, tail);
      var (reply, p1) := run(p, SqlOf(items[0]));
      assert reply == b.replies[0] && p1 == b.states[1] by {
        assert StepOf(run, items[0], b.states[0], b.replies[0], b.states[1], b.datasets[0]);
      }
      assert b.datasets == [Entry(items[0], reply)] + tail.datasets;
      assert b.replies == [reply] + tail.replies;
      assert b.states == [p] + tail.states;
    }
  }

  /** Failure isolation: the entry of statement `i` depends only on that
      statement and the store it met, so a failed statement earlier in the
      batch changes nothing about how a later one is recorded, and a
      failure is recorded as the zero-row error placeholder. */
  lemma {:induction false} EntryIsolated<P>(items: seq<Item>, p: P, run: Runner<P>, i: nat)
    requires NoNull(items) && i < |items|
    ensures var b := RunAll(items, p, run);
      && b.datasets[i] == Entry(items[i], run(b.states[i], SqlOf(items[i])).0)
      && (b.replies[i].DbError? ==>
            (b.datasets[i].rows == 0 && b.datasets[i].data == []
             && b.datasets[i].caption == ErrorPrefix + TemplateText(LabelOf(items[i]))))
  {
    RunAllIsBatch(items, p, run);
    var b := RunAll(items, p, run);
    assert StepOf(run, items[i], b.states[i], b.replies[i], b.states[i + 1], b.datasets[i]);
  }

  /** The `for ... of` loop of the source, written as a loop: each element
      is sent in turn; at a `null` the loop is left with the error. */
  method ExecuteLoop<P>(items: seq<Item>, p: P, run: Runner<P>) returns (datasets: seq<Dataset>, store: P, aborted: bool)
    requires |items| > 0
    ensures var e := ExecuteQueries(Array(items), p, run);
      && (aborted <==> e.Aborted?) && store == e.store
      && (!aborted ==> e.results == Some(datasets))
  {
    ghost var k := FirstNull(items);
    ghost var pre := items[..k];
    datasets := [];
    store := p;
    aborted := false;
    var i := 0;
    while i < |items|
      invariant 0 <= i <= k && !aborted
      invariant datasets + RunAll(pre[i..], store, run).datasets == RunAll(pre, p, run).datasets
      invariant RunAll(pre[i..], store, run).states[k - i] == RunAll(pre, p, run).states[k]
    {
      if items[i].NullItem? {
        aborted := true;
        assert i == k;
        assert pre[i..] == [];
        return;
      }
      assert i < k;
      var (reply, next) := run(store, SqlOf(items[i]));
      assert pre[i..][0] == items[i] && pre[i..][1..] == pre[i + 1..];
      datasets := datasets + [Entry(items[i], reply)];
      store := next;
      i := i + 1;
    }
    assert i == k && pre[i..] == [];
    assert datasets == RunAll(pre, p, run).datasets;
    assert store == RunAll(pre, p, run).states[k];
  }
}

=== FILE: sql_binding.dfy ===
/** Numbered placeholders (`$1`, `$2`, ...) of a parameterised PostgreSQL
    statement and the value list sent with it. */
module SqlBinding {

  /** The server accepts a statement only when the placeholders it uses are
      exactly `$1 .. $n` for the `n` values supplied: one beyond the list has
      no value, and one skipped has no type the server can infer. */
  predicate Aligned(params: seq<nat>, valueCount: nat) {
    && (forall i :: 0 <= i < |params| ==> 1 <= params[i] <= valueCount)
    && (forall k :: 1 <= k <= valueCount ==> k in params)
  }

  /** Placeholders numbered in order of appearance, starting at `$1`. */
  predicate Consecutive(params: seq<nat>) {
    forall i :: 0 <= i < |params| ==> params[i] == i + 1
  }

  /** A statement whose placeholders run `$1 .. $n` in order binds exactly
      `n` values. */
  lemma ConsecutiveIsAligned(params: seq<nat>)
    requires Consecutive(params)
    ensures Aligned(params, |params|)
  {
    forall k | 1 <= k <= |params|
      ensures k in params
    {
      assert params[k - 1] == k;
    }
  }
}

=== FILE: transaction.dfy ===
/** The trace of commands a handler sends over one pooled connection that
    it uses for a transaction: take the connection, BEGIN, the statements
    of the try block, then COMMIT or ROLLBACK, and in `finally` give the
    connection back. */
module Transaction {

  datatype Cmd =
    | Connect
    | Begin
    | Exec(stmt: string)
    | Commit
    | Rollback
    | Release

  /** How the try block ended: it reached COMMIT and COMMIT succeeded; it
      threw (or returned early after its own ROLLBACK) before COMMIT;
      COMMIT itself threw, after which the catch block rolls back; or the
      try block's own early ROLLBACK threw, after which the catch block
      rolls back again. */
  datatype Ending = Committed | RolledBack | CommitFailed | RollbackFailed

  predicate AllExec(t: seq<Cmd>) {
    forall i :: 0 <= i < |t| ==> t[i].Exec?
  }

  /** The shape every transactional handler guarantees: the connection is
      taken and the transaction opened first, the connection is released
      last, the command before the release is the one COMMIT or ROLLBACK
      that closed the transaction, and between them there are only
      statements, except a COMMIT or ROLLBACK that failed and was followed
      by the closing ROLLBACK. */
  predicate Bracketed(t: seq<Cmd>) {
    && |t| >= 4
    && t[0] == Connect && t[1] == Begin
    && t[|t| - 1] == Release
    && (t[|t| - 2] == Commit || t[|t| - 2] == Rollback)
    && forall i :: 2 <= i < |t| - 2 ==>
         t[i].Exec? || ((t[i] == Commit || t[i] == Rollback) && i == |t| - 3 && t[|t| - 2] == Rollback)
  }

  /** The transaction's writes became visible. */
  predicate EndsCommitted(t: seq<Cmd>)
    requires |t| >= 2
  {
    t[|t| - 2] == Commit
  }

  /** Number of times the connection is given back. */
  function Releases(t: seq<Cmd>): nat {
    if t == [] then 0 else Releases(t[..|t| - 1]) + (if t[|t| - 1] == Release then 1 else 0)
  }

  /** The full trace of a handler whose try block sent `execs`. */
  function Bracket(execs: seq<Cmd>, ending: Ending): seq<Cmd> {
    [Connect, Begin] + execs
    + (match ending
       case Committed => [Commit]
       case RolledBack => [Rollback]
       case CommitFailed => [Commit, Rollback]
       case RollbackFailed => [Rollback, Rollback])
    + [Release]
  }

  /** Every bracket is well formed, releases the connection exactly once,
      and is committed exactly when COMMIT succeeded. */
  lemma BracketShape(execs: seq<Cmd>, ending: Ending)
    requires AllExec(execs)
    ensures Bracketed(Bracket(execs, ending))
    ensures EndsCommitted(Bracket(execs, ending)) <==> ending == Committed
    ensures Releases(Bracket(execs, ending)) == 1
  {
    var t := Bracket(execs, ending);
    var closing := match ending
      case Committed => [Commit]
      case RolledBack => [Rollback]
      case CommitFailed => [Commit, Rollback]
      case RollbackFailed => [Rollback, Rollback];
    assert t == [Connect, Begin] + execs + closing + [Release];
    forall i | 2 <= i < |t| - 2
      ensures t[i].Exec? || ((t[i] == Commit || t[i] == Rollback) && i == |t| - 3 && t[|t| - 2] == Rollback)
    {
      if i < 2 + |execs| {
        assert t[i] == execs[i - 2];
      }
    }
    ReleasesNoRelease([Connect, Begin] + execs + closing);
    assert t[..|t| - 1] == [Connect, Begin] + execs + closing;
  }

  lemma {:induction false} ReleasesNoRelease(t: seq<Cmd>)
    requires forall i :: 0 <= i < |t| ==> t[i] != Release
    ensures Releases(t) == 0
  {
    if t != [] {
      ReleasesNoRelease(t[..|t| - 1]);
    }
  }
}

=== FILE: wholesaler_detail.dfy ===
/** The `/wholesaler/:id` route (routes/purchase.js): validates the id,
    runs one query that joins the wholesaler's summary with its invoices
    (one flat row per invoice, or one row with empty invoice columns), and
    shapes the rows into a wholesaler record with an invoice list. */
module WholesalerDetail {
  import opened JsValues
  import JsNumbers

  /** One row of the joined result. */
  datatype JoinedRow = JoinedRow(
    wholesalerId: Value,
    wholesalerName: Value,
    gstNo: Value,
    contactNo: Value,
    emailAddress: Value,
    address: Value,
    stockImport: Value,
    unpaidAmount: Value,
    invoiceNo: Value,
    totalAmount: Value,
    invoiceDate: Value)

  /** One entry of the invoice list. */
  datatype InvoiceLine = InvoiceLine(invoiceNo: Value, totalAmount: Value, invoiceDate: Value)

  /** The wholesaler record answered. */
  datatype Wholesaler = Wholesaler(
    wholesalerId: Value,
    wholesalerName: Value,
    gstNo: Value,
    contactNo: Value,
    emailAddress: Value,
    address: Value,
    stockImport: Value,
    unpaidAmount: Value,
    invoices: seq<InvoiceLine>)

  function LineOf(row: JoinedRow): InvoiceLine {
    InvoiceLine(row.invoiceNo, row.totalAmount, row.invoiceDate)
  }

  /** `.map(...)` to the three invoice columns, then `.filter(inv => inv.invoice_no)`. */
  function InvoiceLines(rows: seq<JoinedRow>): (lines: seq<InvoiceLine>)
    ensures |lines| <= |rows|
    ensures forall k :: 0 <= k < |lines| ==> Truthy(lines[k].invoiceNo)
    decreases |rows|
  {
    if rows == [] then []
    else
      var rest := InvoiceLines(rows[..|rows| - 1]);
      var last := LineOf(rows[|rows| - 1]);
      if Truthy(last.invoiceNo) then rest + [last] else rest
  }

  /** The list keeps exactly the rows with a truthy invoice number: every
      line comes from such a row, and every such row gives a line. */
  lemma {:induction false} InvoiceLinesMembers(rows: seq<JoinedRow>)
    ensures forall l :: l in InvoiceLines(rows) <==>
      exists i :: 0 <= i < |rows| && Truthy(rows[i].invoiceNo) && l == LineOf(rows[i])
    decreases |rows|
  {
    if rows != [] {
      var init := rows[..|rows| - 1];
      InvoiceLinesMembers(init);
      forall l
        ensures l in InvoiceLines(rows) <==>
          exists i :: 0 <= i < |rows| && Truthy(rows[i].invoiceNo) && l == LineOf(rows[i])
      {
        if l in InvoiceLines(init) {
          var i :| 0 <= i < |init| && Truthy(init[i].invoiceNo) && l == LineOf(init[i]);
          assert rows[i] == init[i];
        }
        if exists i :: 0 <= i < |rows| && Truthy(rows[i].invoiceNo) && l == LineOf(rows[i]) {
          var i :| 0 <= i < |rows| && Truthy(rows[i].invoiceNo) && l == LineOf(rows[i]);
          if i < |init| {
            assert init[i] == rows[i];
          }
        }
      }
    }
  }

  /** Shaping distributes over concatenation: the rows' order is kept. */
  lemma {:induction false} InvoiceLinesAppend(a: seq<JoinedRow>, b: seq<JoinedRow>)
    ensures InvoiceLines(a + b) == InvoiceLines(a) + InvoiceLines(b)
    decreases |b|
  {
    if b == [] {
      assert a + b == a;
    } else {
      var b0 := b[..|b| - 1];
      InvoiceLinesAppend(a, b0);
      assert (a + b)[..|a + b| - 1] == a + b0;
    }
  }

  /** The list is as long as the rows exactly when no row lacks an invoice
      number; a wholesaler without invoices (one row of empty invoice
      columns) gets an empty list. */
  lemma {:induction false} InvoiceLinesFull(rows: seq<JoinedRow>)
    ensures |InvoiceLines(rows)| == |rows| <==> forall i :: 0 <= i < |rows| ==> Truthy(rows[i].invoiceNo)
    decreases |rows|
  {
    if rows != [] {
      var init := rows[..|rows| - 1];
      InvoiceLinesFull(init);
      assert forall i :: 0 <= i < |init| ==> init[i] == rows[i];
    }
  }

  /** The same list, built by a loop over the rows. */
  method CollectInvoices(rows: seq<JoinedRow>) returns (lines: seq<InvoiceLine>)
    ensures lines == InvoiceLines(rows)
  {
    lines := [];
    var i := 0;
    while i < |rows|
      invariant 0 <= i <= |rows|
      invariant lines == InvoiceLines(rows[..i])
    {
      var line := LineOf(rows[i]);
      assert rows[..i + 1][..i] == rows[..i];
      if Truthy(line.invoiceNo) {
        lines := lines + [line];
      }
      i := i + 1;
    }
    assert rows[..i] == rows;
  }

  /** The record: summary fields from the first row, invoices from all. */
  function Shape(rows: seq<JoinedRow>): (w: Wholesaler)
    requires |rows| > 0
    ensures w.wholesalerId == rows[0].wholesalerId && w.wholesalerName == rows[0].wholesalerName
    ensures w.gstNo == rows[0].gstNo && w.contactNo == rows[0].contactNo
    ensures w.emailAddress == rows[0].emailAddress && w.address == rows[0].address
    ensures w.stockImport == rows[0].stockImport && w.unpaidAmount == rows[0].unpaidAmount
    ensures w.invoices == InvoiceLines(rows)
  {
    var r := rows[0];
    Wholesaler(r.wholesalerId, r.wholesalerName, r.gstNo, r.contactNo, r.emailAddress, r.address,
               r.stockImport, r.unpaidAmount, InvoiceLines(rows))
  }

  /** The query's outcome; the route catches any failure. */
  datatype QueryReply = Joined(rows: seq<JoinedRow>) | QueryFailed

  datatype DetailBody = ErrorText(error: string) | Found(wholesaler: Wholesaler)

  /** The route answers every case itself: status and body. */
  datatype Answer = Answer(status: int, body: DetailBody)

  const InvalidId: string := "Invalid wholesaler ID"
  const NotFound: string := "Wholesaler not found"
  const ServerError: string := "Internal server error"

  /** The handler. `query` runs the joined SELECT for a numeric id. */
  function WholesalerRoute(id: string, query: int -> QueryReply): (a: Answer)
    // an id `parseInt` cannot read is refused before any query
    ensures JsNumbers.ParseInt(id, JsNumbers.AutoRadix).None? ==> a == Answer(400, ErrorText(InvalidId))
    ensures JsNumbers.ParseInt(id, JsNumbers.AutoRadix).Some? ==>
      var reply := query(JsNumbers.ParseInt(id, JsNumbers.AutoRadix).value);
      && (reply.QueryFailed? ==> a == Answer(500, ErrorText(ServerError)))
      && (reply.Joined? && reply.rows == [] ==> a == Answer(404, ErrorText(NotFound)))
      && (reply.Joined? && reply.rows != [] ==> a == Answer(200, Found(Shape(reply.rows))))
  {
    match JsNumbers.ParseInt(id, JsNumbers.AutoRadix)
    case None => Answer(400, ErrorText(InvalidId))
    case Some(n) =>
      match query(n)
      case QueryFailed => Answer(500, ErrorText(ServerError))
      case Joined(rows) =>
        if rows == [] then Answer(404, ErrorText(NotFound))
        else Answer(200, Found(Shape(rows)))
  }
}
